=== FILE: README.md ===
# Solidity compiler orchestration, modelled in Dafny

This project models the compilation core of the `juanblanco.solidity` VS Code
extension (version 0.0.107). It has two parts.

The backend resolver is `SolcCompiler` in `solcCompiler.js`:

- it decides whether the loaded compiler still matches the settings
  (`initialisedAlready`);
- otherwise it picks one of four kinds of backend, in priority order: the
  project's `node_modules` installation, a local file, a remote release, or
  the bundled compiler;
- for a remote release it uses the `soljson-<version>.js` cache and its
  retry chain.

The compilation orchestrator is `Compiler` in `compiler.js`:

- `compile` guards against an empty request;
- `processCompilationOutput` classifies the parsed response;
- `writeCompilationOutputToBuildDirectory` writes the raw-output snapshot and
  one `.bin`/`.abi`/`.json` triple per contract of every source that passes
  the three filters, into a directory that mirrors the source under the
  workspace root;
- the release-file stripping of `selectRemoteVersion`.

## How the model is built

Paths are sequences of segments (`Paths`), and the workspace root is a
parameter. The build tree is a finite map from paths to directories and files
(`FileSystem`). Each `fs` call succeeds with a new map or fails with an
errno-style error. A failed call leaves the effects of the calls before it in
place.

The resolver's disk is the set of existing files. The compiler backend,
`require` and the network are oracles passed as parameters:

- `Modules` says which specifiers fail to load;
- a `Response` per attempt number says how the network answers;
- `Backends` says what the backend replies to the request.

The error and warning counts of `errorsToDiagnostics` are an input (`Counts`).

The write (`BuildWriter`) is stated in two steps:

1. A pure plan: the `fs` calls the extension makes, in its order (`Plan`).
2. A recursive interpreter that runs the plan and stops at the first
   exception (`Run`).

Properties of the write come from an invariant of the plan (`Shaped`), which
composes over concatenation, plus lemmas that carry plan facts through `Run`.

Promises are modelled by how they settle: resolved, rejected, or never settled.

Behaviour of the code worth noting:

- The empty-request guard of `compile` tests `Object.keys` of the whole
  request object, not of its `sources`.
- A source `<root>/A.sol` is mirrored into `dirname(<bin>/A.sol)`, which is
  `<bin>` itself, not `<bin>/A`.
- A response whose `errors` key is present but holds neither errors nor
  warnings writes nothing. It returns `undefined`, not an empty list.
- A response whose only keys are falsy or unrelated, such as
  `{"errors": null}`, is not empty, so it is written like a clean success.
- The skip test `initialisedAlready` compares the settings with the recorded
  kind only. A loaded remote release is kept when a local file is now set,
  and a loaded local file is kept when a node installation has appeared;
  a fresh initialisation would pick the other backend in both cases.
- The snapshot is written only on the branches that write the build
  directory.
- After a failed first remote attempt, the promise of the retry chain never
  settles. So the "error loading the remote version" rejection is never
  produced with the arguments `(1, 3)`.
- A failed initialisation inside `compile` leaves `compile` pending: the
  `.then` has no rejection handler.

## Model

| member | source | states |
|---|---|---|
| JsValues.ReplaceFirst | vscode/extensions/juanblanco.solidity-0.0.107/out/src/compiler.js:45-48 | `String.prototype.replace` with a string pattern replaces only the first occurrence and leaves a string without one unchanged |
| Paths.ResolveRelative | vscode/extensions/juanblanco.solidity-0.0.107/out/src/compiler.js:220-221 | joining the relative path from `from` to `to` onto `from` gives back `to` |
| Paths.RelativeUnderRoot | vscode/extensions/juanblanco.solidity-0.0.107/out/src/compiler.js:247 | a path inside the root is reached from it without any `..` step, through the segments below the root |
| Paths.BasenameWithoutExtension | vscode/extensions/juanblanco.solidity-0.0.107/out/src/compiler.js:222 | `path.basename(p, '.sol')` of `<name>.sol` is `<name>` |
| FileSystem.MkDir | vscode/extensions/juanblanco.solidity-0.0.107/out/src/compiler.js:216-218 | `mkdirSync` succeeds exactly when the path is absent and its parent is a directory; then only that directory is added, and a well-formed tree stays well formed |
| FileSystem.WriteFile | vscode/extensions/juanblanco.solidity-0.0.107/out/src/compiler.js:264-265 | `writeFileSync` succeeds exactly when the parent is a directory and the path is not; then only that file changes |
| FileSystem.RemoveIfExists | vscode/extensions/juanblanco.solidity-0.0.107/out/src/compiler.js:255-263 | the exists-then-unlink idiom fails only on a directory; otherwise the path is absent afterwards and nothing else changes |
| FileSystem.EnsureDirectoryExistence | vscode/extensions/juanblanco.solidity-0.0.107/out/src/compiler.js:204-211 | nothing is removed or changed; only directories above `dirname(p)` are added; it succeeds exactly when the parent exists or the deepest existing ancestor is a directory, and then the parent exists |
| FileSystem.EnsureCreatesAncestors | vscode/extensions/juanblanco.solidity-0.0.107/out/src/compiler.js:204-211 | after success every ancestor of `dirname(p)` is a directory, and nothing that existed was removed |
| FileSystem.MkDirs | vscode/extensions/juanblanco.solidity-0.0.107/out/src/compiler.js:249-251 | recursive creation keeps every entry, adds only directories on the way to `d`, and succeeds exactly when the deepest existing ancestor is a directory, leaving `d` a directory |
| RemoteFetch.CacheAndUrlAgree | vscode/extensions/juanblanco.solidity-0.0.107/out/src/solcCompiler.js:150-182 | the cache file and the download URL name the same `soljson-<v>.js`, and the cache file sits directly in the cache directory |
| RemoteFetch.LoadRemoteWasmVersion | vscode/extensions/juanblanco.solidity-0.0.107/out/src/solcCompiler.js:148-202 | a download happens exactly when the cache file is missing or the version is `latest`; a download fetches `soljson-<v>.js` from the release URL and leaves the cache file behind even when it fails; a network error rejects with its reason, a non-200 answer rejects with the retrieval-error prefix and the status message, and a 200 answer loads the cache file, as a cache hit does |
| RemoteFetch.RetryChainSettles | vscode/extensions/juanblanco.solidity-0.0.107/out/src/solcCompiler.js:169-180 | every call but the last stays pending after a failed attempt; the last resolves with what its attempt loaded, or rejects with that attempt's reason unchanged, and only once the attempts are exhausted |
| RemoteFetch.OutermostSettlement | vscode/extensions/juanblanco.solidity-0.0.107/out/src/solcCompiler.js:169-180 | the outermost promise resolves exactly when the first attempt loads; after a failed first attempt with a retry allowed it never settles |
| RemoteFetch.AtMostFourAttempts | vscode/extensions/juanblanco.solidity-0.0.107/out/src/solcCompiler.js:90 | with the arguments `(1, 3)` at most four attempts are made, and the outermost call never rejects |
| RemoteFetch.ChainDiskBounded | vscode/extensions/juanblanco.solidity-0.0.107/out/src/solcCompiler.js:148-149 | a chain adds no file other than the version's cache file |
| RemoteFetch.AtMostOneDownload | vscode/extensions/juanblanco.solidity-0.0.107/out/src/solcCompiler.js:149-196 | for a version other than `latest` only the first attempt can download; with the cache file present, no attempt downloads |
| RemoteFetch.LatestAlwaysDownloads | vscode/extensions/juanblanco.solidity-0.0.107/out/src/solcCompiler.js:185 | `latest` is downloaded on every attempt |
| RemoteFetch.RetryLoop | vscode/extensions/juanblanco.solidity-0.0.107/out/src/solcCompiler.js:169-180 | the retry counter loop computes the same attempts, settlements and disk as the recursive chain |
| SolcResolver.NewSolcCompiler | vscode/extensions/juanblanco.solidity-0.0.107/out/src/solcCompiler.js:19-26 | a new resolver has no backend loaded and records the default kind |
| SolcResolver.InitialisedAlreadyRequires | vscode/extensions/juanblanco.solidity-0.0.107/out/src/solcCompiler.js:34-60 | a skip needs a loaded backend and an unchanged node flag; local-file and remote kinds need exact equality with the stored setting; the default kind needs both settings blank and no node installation |
| SolcResolver.IntialiseCompiler | vscode/extensions/juanblanco.solidity-0.0.107/out/src/solcCompiler.js:61-111 | a skip changes nothing; otherwise the node flag is recorded first. A success records the kind the priority node install, local file, remote, default selects, with the matching setting, and loads that kind's backend: the node installation's module, the local file's module, the version's cache file or the bundled compiler. The node-installation and local-file branches resolve exactly when their module loads and otherwise reject with the loader's reason; the default branch always resolves. A failure keeps backend, kind and setting. An undefined root rejects exactly when the node compiler is enabled. Only the remote branch changes the disk. A recorded setting that fits its kind keeps fitting |
| SolcResolver.SkipAgreesWithSelection | vscode/extensions/juanblanco.solidity-0.0.107/out/src/solcCompiler.js:34-111 | when the skip test holds, the settings would select the recorded kind afresh exactly when the skip is not stale; the skip is stale when the node compiler is enabled and the root is unset or the node installation exists while a local file or remote release is loaded, when the node compiler is enabled with an unset root while the default is loaded, or when a truthy local file is set while a remote release is loaded; a non-stale skip also matches the recorded setting |
| SolcResolver.RemoteSkipIgnoresLocalFile | vscode/extensions/juanblanco.solidity-0.0.107/out/src/solcCompiler.js:34-111 | a loaded remote release `v` is kept when the local file setting becomes truthy and the remote version is still `v`, although a fresh initialisation would load the local file |
| SolcResolver.InitialiseThenInitialisedAlready | vscode/extensions/juanblanco.solidity-0.0.107/out/src/solcCompiler.js:34-111 | after a successful initialisation, the skip test holds for the same arguments on any disk where the node installation is still present or still absent |
| SolcResolver.CacheIsNotNodeInstallation | vscode/extensions/juanblanco.solidity-0.0.107/out/src/solcCompiler.js:112-114 | a `soljson-<v>.js` cache file is never `node_modules/solc/soljson.js` |
| SolcResolver.InitialiseKeepsNodeInstallation | vscode/extensions/juanblanco.solidity-0.0.107/out/src/solcCompiler.js:112-117 | initialising never changes whether the node installation exists |
| SolcResolver.InitialiseIdempotent | vscode/extensions/juanblanco.solidity-0.0.107/out/src/solcCompiler.js:61-111 | repeating a successful initialisation, on the disk it left behind, is skipped |
| SolcResolver.RemoteBranchSettlement | vscode/extensions/juanblanco.solidity-0.0.107/out/src/solcCompiler.js:88-96 | the remote branch resolves exactly when the first attempt loads, otherwise never settles, and never rejects |
| BuildOutput.CompilerVersion | vscode/extensions/juanblanco.solidity-0.0.107/out/src/compiler.js:266-271 | the descriptor's version is `compiler.version` of the parsed metadata, and `''` when parsing fails or `compiler` is missing |
| BuildOutput.CompilerVersionOfWellFormedMetadata | vscode/extensions/juanblanco.solidity-0.0.107/out/src/compiler.js:266-268 | metadata whose `compiler.version` is a string yields that string |
| BuildOutput.SurvivesIff | vscode/extensions/juanblanco.solidity-0.0.107/out/src/compiler.js:240-243 | a source survives exactly when each filter is unset or passes: it is the single file, it is not under the excluded path, it is under the source directory |
| BuildOutput.EmptyFilterIsNoFilter | vscode/extensions/juanblanco.solidity-0.0.107/out/src/compiler.js:240-243 | an empty-string filter behaves as an absent one |
| BuildOutput.MirrorDirUnderRoot | vscode/extensions/juanblanco.solidity-0.0.107/out/src/compiler.js:247-248 | a source below the root is written to the build directory followed by the source's directories below the root |
| BuildOutput.ArtifactPathsDistinct | vscode/extensions/juanblanco.solidity-0.0.107/out/src/compiler.js:252-254 | a descriptor path is never the `.bin` or `.abi` path of any contract, and a contract's `.bin` and `.abi` paths differ |
| BuildWriter.Exec | vscode/extensions/juanblanco.solidity-0.0.107/out/src/compiler.js:249-291 | one call changes only the path it removes or writes; it adds only directories and the file it writes; a write holds its content; a removal leaves the path absent; reading a missing AST throws and is the only call that throws that. Each call completes exactly when the `fs` call it makes succeeds: `existsSync` short-cuts the directory creations, an unlink needs a file, a write needs a directory parent and a target that is not a directory, and a push always completes |
| BuildWriter.RunThrows | vscode/extensions/juanblanco.solidity-0.0.107/out/src/compiler.js:286 | a run containing a read of a missing source's AST throws |
| BuildWriter.RunRecords | vscode/extensions/juanblanco.solidity-0.0.107/out/src/compiler.js:291-298 | a run that completes returns exactly the paths its calls pushed, in order |
| BuildWriter.ContractRecorded | vscode/extensions/juanblanco.solidity-0.0.107/out/src/compiler.js:252-291 | one contract pushes its descriptor path, unless its source has no AST entry |
| BuildWriter.ContractShaped | vscode/extensions/juanblanco.solidity-0.0.107/out/src/compiler.js:252-291 | one contract touches only its three artifact paths. Its `.json` write is its descriptor. With the AST present each touched path ends written and only its descriptor is pushed. The missing-AST read happens exactly when the source has no AST entry |
| BuildWriter.ContractRemovesFirst | vscode/extensions/juanblanco.solidity-0.0.107/out/src/compiler.js:255-263 | the first call touching each of a contract's `.abi`, `.bin` and `.json` paths removes it |
| BuildWriter.ContractFinalWrites | vscode/extensions/juanblanco.solidity-0.0.107/out/src/compiler.js:264-290 | with the AST present, the last call touching `.bin` writes the bytecode object, the last touching `.abi` writes the ABI, and the last touching `.json` writes the descriptor built from the contract, the source and its AST |
| BuildWriter.ContractWritesContents | vscode/extensions/juanblanco.solidity-0.0.107/out/src/compiler.js:264-290 | when one contract's calls complete, `.bin` holds the bytecode object, `.abi` the ABI and `.json` the descriptor built from the contract, the source and its AST |
| BuildWriter.ContractMissingAst | vscode/extensions/juanblanco.solidity-0.0.107/out/src/compiler.js:255-286 | without an AST entry one contract's calls throw; when the fault is the AST read, the old `.json` is gone and the new `.bin` and `.abi` are written |
| BuildWriter.EntriesWritesFrom | vscode/extensions/juanblanco.solidity-0.0.107/out/src/compiler.js:237-293 | every file the contract loop writes is the bytecode object, ABI or descriptor of a contract of a source that passes the filters, at that contract's paths |
| BuildWriter.EntriesDescriptorGenuine | vscode/extensions/juanblanco.solidity-0.0.107/out/src/compiler.js:237-291 | a descriptor the loop writes belongs to a contract of a surviving source that has an AST entry, at that contract's mirrored `.json` path, and holds that contract's fields |
| BuildWriter.ContractLastTouch | vscode/extensions/juanblanco.solidity-0.0.107/out/src/compiler.js:255-290 | with the AST present the last touch of each of the three paths is a write |
| BuildWriter.SourceShaped | vscode/extensions/juanblanco.solidity-0.0.107/out/src/compiler.js:244-293 | a source's contracts push their descriptor paths in order, and a missing AST throws unless the source has no contracts |
| BuildWriter.EntriesShaped | vscode/extensions/juanblanco.solidity-0.0.107/out/src/compiler.js:237-297 | the filtered sources push exactly the expected descriptor paths, and no AST read fails exactly when every surviving source with contracts has an AST entry |
| BuildWriter.SnapshotJsonNamed | vscode/extensions/juanblanco.solidity-0.0.107/out/src/compiler.js:219-228 | both snapshot names end in `.json` |
| BuildWriter.PreludeShape | vscode/extensions/juanblanco.solidity-0.0.107/out/src/compiler.js:216-234 | before the contract loop only the snapshot is touched, nothing is pushed, and the last touch writes the raw output to the snapshot |
| BuildWriter.WriteCompilationOutput | vscode/extensions/juanblanco.solidity-0.0.107/out/src/compiler.js:212-299 | the build tree stays well formed, whether the write completes or throws |
| BuildWriter.WriteRuns | vscode/extensions/juanblanco.solidity-0.0.107/out/src/compiler.js:212-299 | the whole write completes when the build directory, the snapshot's directory and the mirrored directory of every passing contract exist, neither the snapshot nor any artifact path is a directory, and every passing source with contracts has an AST entry |
| BuildWriter.ContractRuns | vscode/extensions/juanblanco.solidity-0.0.107/out/src/compiler.js:249-290 | one contract's calls complete when its source has an AST entry and either its directory exists with no directory at its artifact paths, or its directory is missing and `mkdirsSync` can create it |
| BuildWriter.WriteReportsExpected | vscode/extensions/juanblanco.solidity-0.0.107/out/src/compiler.js:237-298 | a completed write returns one `<mirrored dir>/<name>.json` per surviving (source, contract) pair, in iteration order. A surviving source with contracts and no AST entry makes it throw, and that exception has no other cause |
| BuildWriter.ReportedFilesHoldDescriptors | vscode/extensions/juanblanco.solidity-0.0.107/out/src/compiler.js:272-291 | after a completed write every returned path holds a descriptor whose contract name is the file name without `.json`, and which is the descriptor of a contract of a surviving source whose mirrored `.json` path it is |
| BuildWriter.SnapshotHoldsOutput | vscode/extensions/juanblanco.solidity-0.0.107/out/src/compiler.js:219-234 | after a completed write the snapshot holds the raw response, unless a descriptor took its path |
| BuildWriter.WriteTouchesOnlyArtifacts | vscode/extensions/juanblanco.solidity-0.0.107/out/src/compiler.js:212-299 | whatever happens, entries other than the snapshot and `.abi`/`.bin`/`.json` files are unchanged, and other new entries are directories |
| Orchestrator.WritesIff | vscode/extensions/juanblanco.solidity-0.0.107/out/src/compiler.js:164-203 | the output is written exactly when the response is not empty and has no truthy `errors` value, or has 0 errors and some warnings; an `errors` key with 0 and 0 is the unreported case; a response with only falsy or unrelated keys is written |
| Orchestrator.ProcessCompilationOutput | vscode/extensions/juanblanco.solidity-0.0.107/out/src/compiler.js:164-203 | the non-writing branches leave the tree as it was and return `undefined`; a writing branch performs the write, keeps the tree it leaves, and returns its files or throws its exception; the files returned are the expected descriptor paths; a missing AST on a writing branch throws |
| Orchestrator.InitialiseCompiler | vscode/extensions/juanblanco.solidity-0.0.107/out/src/compiler.js:137-163 | the resolver is created on first use with the workspace root and the cache path, then kept; the root stays the one it was created with |
| Orchestrator.Compile | vscode/extensions/juanblanco.solidity-0.0.107/out/src/compiler.js:93-113 | an empty request returns early with nothing changed. A settled compilation used the loaded backend's reply. Returned files are the expected descriptors of a writing response. The tree changes only on a writing branch |
| Orchestrator.CompileAfterInitialisation | vscode/extensions/juanblanco.solidity-0.0.107/out/src/compiler.js:100-113 | after a resolved initialisation, a backend that throws or replies with text that is not JSON makes `compile` reject with the tree unchanged; a parsed reply goes through `processCompilationOutput`, whose tree `compile` keeps and whose files, `undefined` or exception it settles with |
| Orchestrator.CompileWritesReply | vscode/extensions/juanblanco.solidity-0.0.107/out/src/compiler.js:100-113 | after a resolved initialisation, a writing reply whose write completes makes `compile` resolve with the expected descriptor paths and leaves the tree the write left |
| Orchestrator.EmptyRequestTouchesNothing | vscode/extensions/juanblanco.solidity-0.0.107/out/src/compiler.js:96-99 | with an empty request the result depends on neither the settings, the modules, the network nor the backend |
| Orchestrator.RootDirIgnored | vscode/extensions/juanblanco.solidity-0.0.107/out/src/compiler.js:93-104 | the `rootDir` argument plays no part in a compilation |
| Orchestrator.FailedInitialisationHangs | vscode/extensions/juanblanco.solidity-0.0.107/out/src/compiler.js:100-111 | a failed or unsettled initialisation leaves `compile` pending with the build tree untouched |
| Orchestrator.NoWriteWithoutSuccess | vscode/extensions/juanblanco.solidity-0.0.107/out/src/compiler.js:174-186 | a response with errors, or with an empty `errors` report, leaves the tree as it was and resolves `undefined` |
| Orchestrator.SecondCompileReusesBackend | vscode/extensions/juanblanco.solidity-0.0.107/out/src/compiler.js:137-163 | after a successful initialisation inside `compile`, the next one with the same settings skips loading |
| Releases.Choices | vscode/extensions/juanblanco.solidity-0.0.107/out/src/compiler.js:32-36 | the quick pick offers `none`, `latest`, then every release key, and nothing else |
| Releases.SelectRemoteVersion | vscode/extensions/juanblanco.solidity-0.0.107/out/src/compiler.js:37-52 | `none` stores `''` and `latest` stores `latest`. Another key stores a value only when its release is a string: the string `undefined` stores `''`, and any other string stores its stripped version. A missing or non-string value throws |
| Releases.ReleaseVersionOfArtifactName | vscode/extensions/juanblanco.solidity-0.0.107/out/src/compiler.js:45-48 | `soljson-<v>.js` is stripped back to `v` when `v` holds no `.js` |
| Releases.ReleaseVersionMovesFirstSuffix | vscode/extensions/juanblanco.solidity-0.0.107/out/src/compiler.js:45-48 | for a version `v.jsw`, where `v` holds no `.js`, the strip gives `vw.js`: the first `.js` is removed instead of the file suffix |
| Releases.SelectListedRelease | vscode/extensions/juanblanco.solidity-0.0.107/out/src/compiler.js:42-50 | picking a release listed under `soljson-<v>.js` stores `v` |

## Left out

- WriteCompilationOutput: completion of the whole write is proved only when every directory it needs already exists (`WriteRuns`). When directories must be created, completion is proved for one contract's calls (`ContractRuns`), not as one condition on the starting tree, because a directory created for one source can collide with a file written for another.
- Contract: a contract entry always carries `abi` and `evm.bytecode.object`. An entry without `evm` makes the bytecode read throw a `TypeError`, and an entry without `abi` or `bytecode.object` makes `writeFileSync` throw on `undefined`; both would reject `compile`, and neither case is modelled.
- VS Code UI is not modelled: output channel, messages, status bar, the quick pick itself and configuration updates. The model keeps only the values they carry.
- `getSolcReleases`, `outputSolcReleases` and the HTTPS streaming of a download are not modelled. A release list is a parameter, and a download is only success or failure with a reason.
- `errorsToDiagnostics` and the diagnostic collection are not modelled. The file is not part of this model, and the counts are an input.
- `compileSolidityDocumentAndGetDiagnosticErrors`, `compileActive.js` and `outputCompilerInfo` are not modelled. They are editor glue or depend on files that are not part of this model.
- The backend's `compile` and `version`, and `require`/`solc.setupMethods`, are not modelled. They are oracles.
- JSON serialisation and formatting are not modelled. A written file holds the value serialised into it. Duplicate keys in a parsed object keep the last one.
- Only POSIX paths are modelled, as normalised segment sequences. Windows paths and `path.resolve` against the process directory are not.
- A `singleContractFilePath` of `''` places the snapshot relative to the workspace root. Node would resolve it against the process's current directory, which is not modelled.
- The filesystem failures modelled are the errno cases ENOENT, ENOTDIR, EISDIR and EEXIST. Permissions, full disks and races are not.
- An `errors`, `contracts` or `sources` key with a falsy value (`null`, `0`, `''`) is read as an absent key by the branches that test it, but still counts as a key for `Object.keys` (`otherKeys`). Any present array is truthy, as in JavaScript.
- The backend's `errors` value, when truthy, is always an array. A truthy non-array value would make `errors.forEach` throw inside `compile` and reject it; that case is not modelled.
- IsEmpty: a reply that parses to a JSON primitive rather than an object is not modelled. `Object.keys(null)` throws, a number has no keys and a string has one key per character.
- A missing workspace folder (`workspaceFolders` undefined) is not modelled. The workspace root is always given.
- The `enableLocalNodeCompiler` setting is a boolean. An undefined setting is not distinguished from `false`.
- Timing and interleaving of promises are not modelled. Only their settlement is.
- The write stream that creates the cache file, and the timing of its `finish` event, are not modelled. The cache file is taken to exist after any download.

=== FILE: filesystem.dfy ===
/**
  The synchronous `fs` calls the extension makes, over a file system held
  as a finite map from paths to directories and files. Each call either
  succeeds with a new file system or fails, leaving the file system as it
  was; a sequence of calls that fails half-way keeps the effects of the
  calls before the failure (`Step.Fail` carries that state).
 */
module FileSystem {
  import opened Paths

  datatype Node<C> = Dir | File(content: C)

  type Fs<C> = map<Path, Node<C>>

  /** The errno-style failures of the modelled calls. */
  datatype FsError =
    | NoEntry(path: Path)        // ENOENT
    | NotDirectory(path: Path)   // ENOTDIR
    | IsDirectory(path: Path)    // EISDIR
    | AlreadyExists(path: Path)  // EEXIST

  /** Outcome of a sequence of calls: the file system it leaves behind and,
      on failure, the error of the call that failed. */
  datatype Step<C> = Ok(fs: Fs<C>) | Fail(fs: Fs<C>, error: FsError)

  predicate IsDir<C>(fs: Fs<C>, p: Path) {
    p in fs && fs[p].Dir?
  }

  /** A real file system: the root is a directory and every other entry
      sits in a directory. */
  predicate WellFormed<C>(fs: Fs<C>) {
    && IsDir(fs, [])
    && forall p {:trigger Dirname(p)} :: p in fs && p != [] ==> IsDir(fs, Dirname(p))
  }

  /** Nothing that existed in `fs` was removed or changed in `fs'`. */
  predicate Keeps<C(==)>(fs: Fs<C>, fs': Fs<C>) {
    forall p :: p in fs ==> p in fs' && fs'[p] == fs[p]
  }

  /** The error a call reports when the parent of `p` is not a directory. */
  function ParentError<C>(fs: Fs<C>, p: Path): FsError {
    if Dirname(p) in fs then NotDirectory(Dirname(p)) else NoEntry(Dirname(p))
  }

  /** `fs.mkdirSync(p)`, not recursive. */
  function MkDir<C>(fs: Fs<C>, p: Path): (r: Step<C>)
    ensures r.Ok? <==> p !in fs && IsDir(fs, Dirname(p))
    ensures r.Ok? ==> r.fs == fs[p := Dir]
    ensures r.Fail? ==> r.fs == fs
    ensures WellFormed(fs) && r.Ok? ==> WellFormed(r.fs)
  {
    if p in fs then Fail(fs, AlreadyExists(p))
    else if !IsDir(fs, Dirname(p)) then Fail(fs, ParentError(fs, p))
    else Ok(fs[p := Dir])
  }

  /** `fs.unlinkSync(p)`: removes a file; directories are refused. */
  function Unlink<C>(fs: Fs<C>, p: Path): (r: Step<C>)
    ensures r.Ok? <==> p in fs && fs[p].File?
    ensures r.Ok? ==> r.fs == fs - {p}
    ensures r.Fail? ==> r.fs == fs
    ensures WellFormed(fs) && r.Ok? ==> WellFormed(r.fs)
  {
    if p !in fs then Fail(fs, NoEntry(p))
    else if fs[p].Dir? then Fail(fs, IsDirectory(p))
    else
      assert WellFormed(fs) ==> forall q :: q in fs && q != [] ==> Dirname(q) != p;
      Ok(fs - {p})
  }

  /** `fs.writeFileSync(p, c)`: creates or truncates a file in an existing
      directory. */
  function WriteFile<C>(fs: Fs<C>, p: Path, c: C): (r: Step<C>)
    ensures r.Ok? <==> IsDir(fs, Dirname(p)) && !IsDir(fs, p)
    ensures r.Ok? ==> r.fs == fs[p := File(c)]
    ensures r.Fail? ==> r.fs == fs
    ensures WellFormed(fs) && r.Ok? ==> WellFormed(r.fs)
  {
    if IsDir(fs, p) then Fail(fs, IsDirectory(p))
    else if !IsDir(fs, Dirname(p)) then Fail(fs, ParentError(fs, p))
    else
      assert WellFormed(fs) ==> forall q :: q in fs && q != [] ==> Dirname(q) != p;
      Ok(fs[p := File(c)])
  }

  /** The `if (fs.existsSync(p)) fs.unlinkSync(p)` idiom. */
  function RemoveIfExists<C>(fs: Fs<C>, p: Path): (r: Step<C>)
    ensures r.Ok? <==> p !in fs || fs[p].File?
    ensures r.Ok? ==> r.fs == fs - {p}
    ensures r.Fail? ==> r.fs == fs
    ensures WellFormed(fs) && r.Ok? ==> WellFormed(r.fs)
  {
    if p in fs then Unlink(fs, p) else Ok(fs)
  }

  /** The longest ancestor of `d` (or `d` itself) that exists. */
  function Deepest<C>(fs: Fs<C>, d: Path): (a: Path)
    requires [] in fs
    ensures a in fs && IsPrefix(a, d)
    ensures forall i :: |a| < i <= |d| ==> d[..i] !in fs
    decreases |d|
  {
    if d in fs then d
    else
      var a := Deepest(fs, Dirname(d));
      assert forall i :: |a| < i < |d| ==> d[..i] == Dirname(d)[..i];
      assert d[..|d|] == d;
      a
  }

  /** The extension's own `ensureDirectoryExistence(p)`: if the parent of
      `p` is missing, make sure the grandparent exists, then create the
      parent. An existing parent, even a file, ends the recursion. */
  function EnsureDirectoryExistence<C(==)>(fs: Fs<C>, p: Path): (r: Step<C>)
    requires WellFormed(fs)
    ensures WellFormed(r.fs) && Keeps(fs, r.fs)
    ensures forall q :: q in r.fs && q !in fs ==> r.fs[q].Dir? && IsPrefix(q, Dirname(p))
    ensures r.Ok? <==> Dirname(p) in fs || IsDir(fs, Deepest(fs, Dirname(p)))
    ensures r.Ok? ==> Dirname(p) in r.fs
    ensures r.Ok? && Dirname(p) !in fs ==> IsDir(r.fs, Dirname(p))
    decreases |p|
  {
    var d := Dirname(p);
    if d in fs then Ok(fs)
    else
      match EnsureDirectoryExistence(fs, d)
      case Fail(fs1, e) => Fail(fs1, e)
      case Ok(fs1) =>
        assert d !in fs1;
        MkDir(fs1, d)
  }

  /** `fs-extra`'s `mkdirsSync(d)`: creates `d` and every missing ancestor,
      outermost first; it fails when `d` or the deepest existing ancestor
      is a file. */
  function MkDirs<C(==)>(fs: Fs<C>, d: Path): (r: Step<C>)
    requires WellFormed(fs)
    ensures WellFormed(r.fs) && Keeps(fs, r.fs)
    ensures forall q :: q in r.fs && q !in fs ==> r.fs[q].Dir? && IsPrefix(q, d)
    ensures r.Ok? <==> IsDir(fs, Deepest(fs, d))
    ensures r.Ok? ==> IsDir(r.fs, d)
  {
    if d in fs then
      if fs[d].Dir? then Ok(fs) else Fail(fs, AlreadyExists(d))
    else
      match EnsureDirectoryExistence(fs, d)
      case Fail(fs1, e) => Fail(fs1, e)
      case Ok(fs1) =>
        assert d !in fs1;
        MkDir(fs1, d)
  }

  /** Every ancestor of an entry of a well-formed file system is a
      directory. */
  lemma {:induction false} AncestorsExist<C>(fs: Fs<C>, p: Path)
    requires WellFormed(fs)
    requires p in fs
    ensures forall i :: 0 <= i < |p| ==> IsDir(fs, p[..i])
    decreases |p|
  {
    if p != [] {
      var d := Dirname(p);
      AncestorsExist(fs, d);
      forall i | 0 <= i < |p| ensures IsDir(fs, p[..i]) {
        if i < |d| {
          assert p[..i] == d[..i];
        } else {
          assert p[..i] == d;
        }
      }
    }
  }

  /** After a successful `ensureDirectoryExistence(p)` the parent of `p`
      and all of its ancestors exist, and nothing was removed. */
  lemma EnsureCreatesAncestors<C>(fs: Fs<C>, p: Path)
    requires WellFormed(fs)
    requires EnsureDirectoryExistence(fs, p).Ok?
    ensures Dirname(p) in EnsureDirectoryExistence(fs, p).fs
    ensures forall i :: 0 <= i < |Dirname(p)| ==> IsDir(EnsureDirectoryExistence(fs, p).fs, Dirname(p)[..i])
    ensures Keeps(fs, EnsureDirectoryExistence(fs, p).fs)
  {
    AncestorsExist(EnsureDirectoryExistence(fs, p).fs, Dirname(p));
  }
}

=== FILE: jsvalues.dfy ===
/**
  The JavaScript values the extension handles, reduced to what its logic
  inspects: an optional value (`undefined`/`null` versus a value), parsed
  JSON, and the two string operations it relies on, `startsWith` and the
  first-occurrence `replace`.
 */
module JsValues {

  /** `None` stands for `undefined` or `null`. */
  datatype Option<+T> = None | Some(value: T)

  /** A parsed JSON value. Numbers are kept as integers: no number is ever
      inspected by the modelled code. */
  datatype Json =
    | JNull
    | JBool(b: bool)
    | JNumber(n: int)
    | JString(s: string)
    | JArray(items: seq<Json>)
    | JObject(members: seq<(string, Json)>)

  /** The `typeof x === 'undefined' || x === null || x === ''` test the
      resolver applies to its string settings. */
  predicate Blank(s: Option<string>) {
    s.None? || s.value == ""
  }

  /** JavaScript truthiness of an optional string: `undefined`, `null` and
      `''` are falsy, every other string is truthy. */
  predicate Truthy(s: Option<string>) {
    !Blank(s)
  }

  /** Property read `j.key`. Reading a property of a non-object yields
      `undefined`; of duplicated keys `JSON.parse` keeps the last one. */
  function Member(j: Json, key: string): (r: Option<Json>)
    ensures r.Some? ==> j.JObject? && exists i :: 0 <= i < |j.members| && j.members[i] == (key, r.value)
    ensures r.None? && j.JObject? ==> forall i :: 0 <= i < |j.members| ==> j.members[i].0 != key
  {
    match j
    case JObject(ms) => LastMember(ms, key)
    case _ => None
  }

  function LastMember(ms: seq<(string, Json)>, key: string): (r: Option<Json>)
    ensures r.Some? ==> exists i :: 0 <= i < |ms| && ms[i] == (key, r.value)
    ensures r.None? ==> forall i :: 0 <= i < |ms| ==> ms[i].0 != key
  {
    if ms == [] then None
    else if ms[|ms| - 1].0 == key then Some(ms[|ms| - 1].1)
    else LastMember(ms[..|ms| - 1], key)
  }

  /** `s.startsWith(prefix)`. */
  predicate StartsWith(s: string, prefix: string) {
    |prefix| <= |s| && s[..|prefix|] == prefix
  }

  /** `pat` occurs in `s` at index `i`. */
  predicate OccursAt(s: string, pat: string, i: nat) {
    i + |pat| <= |s| && s[i..i + |pat|] == pat
  }

  /** `pat` occurs somewhere in `s`. */
  predicate Contains(s: string, pat: string) {
    exists i: nat | i <= |s| :: OccursAt(s, pat, i)
  }

  /** `s.indexOf(pat)`, with `None` for `-1`: the first index at which `pat`
      occurs. */
  function FirstIndex(s: string, pat: string): (r: Option<nat>)
    ensures r.Some? ==> OccursAt(s, pat, r.value)
    ensures r.Some? ==> forall j: nat :: j < r.value ==> !OccursAt(s, pat, j)
    ensures r.None? <==> !Contains(s, pat)
    decreases |s|
  {
    if |s| < |pat| then
      assert forall j: nat :: !OccursAt(s, pat, j);
      None
    else if s[..|pat|] == pat then
      assert OccursAt(s, pat, 0);
      Some(0)
    else
      var rest := FirstIndex(s[1..], pat);
      ShiftOccurrence(s, pat);
      match rest
      case None => None
      case Some(i) =>
        assert forall j: nat :: j < i + 1 ==> !OccursAt(s, pat, j) by {
          forall j: nat | j < i + 1 ensures !OccursAt(s, pat, j) {
            if j > 0 { assert !OccursAt(s[1..], pat, j - 1); }
          }
        }
        Some(i + 1)
  }

  /** An occurrence at index `j + 1` of `s` is an occurrence at `j` of `s[1..]`. */
  lemma ShiftOccurrence(s: string, pat: string)
    requires |s| > 0
    ensures forall j: nat {:trigger OccursAt(s[1..], pat, j)} :: OccursAt(s, pat, j + 1) <==> OccursAt(s[1..], pat, j)
    ensures !OccursAt(s, pat, 0) ==> (Contains(s, pat) <==> Contains(s[1..], pat))
  {
    forall j: nat ensures OccursAt(s, pat, j + 1) <==> OccursAt(s[1..], pat, j) {
      if j + 1 + |pat| <= |s| {
        assert s[j + 1..j + 1 + |pat|] == s[1..][j..j + |pat|];
      }
    }
    if !OccursAt(s, pat, 0) {
      if Contains(s, pat) {
        var i: nat :| OccursAt(s, pat, i);
        assert i > 0;
        assert OccursAt(s[1..], pat, i - 1);
      }
      if Contains(s[1..], pat) {
        var i: nat :| OccursAt(s[1..], pat, i);
        assert OccursAt(s, pat, i + 1);
      }
    }
  }

  /** `s.replace(pat, rep)` with a string pattern: only the first occurrence
      is replaced, and `s` is returned unchanged when there is none. */
  function ReplaceFirst(s: string, pat: string, rep: string): (r: string)
    ensures !Contains(s, pat) ==> r == s
    ensures Contains(s, pat) ==> exists i: nat :: OccursAt(s, pat, i) && (forall j: nat :: j < i ==> !OccursAt(s, pat, j)) && r == s[..i] + rep + s[i + |pat|..]
  {
    match FirstIndex(s, pat)
    case None => s
    case Some(i) => s[..i] + rep + s[i + |pat|..]
  }

  /** The replacement happens at the first occurrence. */
  lemma ReplaceFirstAt(s: string, pat: string, rep: string, i: nat)
    requires OccursAt(s, pat, i)
    requires forall j: nat :: j < i ==> !OccursAt(s, pat, j)
    ensures ReplaceFirst(s, pat, rep) == s[..i] + rep + s[i + |pat|..]
  {
    var k := FirstIndex(s, pat);
    assert Contains(s, pat) by { assert OccursAt(s, pat, i); }
    assert k.value == i;
  }
}

=== FILE: loader.dfy ===
/**
  Loading a compiler backend: `require(spec)` followed by
  `solc.setupMethods`. The backend itself is opaque; it is identified by
  the module it was loaded from.
 */
module Loader {

  /** A loaded compiler: the module it came from, or the `solc` package the
      extension bundles. */
  datatype Backend = Module(specifier: string) | Bundled

  datatype Load = Loaded(backend: Backend) | LoadFailed(reason: string)

  /** Which module specifiers fail to load, and with what message. Every
      other specifier loads. */
  datatype Modules = Modules(failures: map<string, string>)

  /** `solc.setupMethods(require(spec))`. */
  function Require(m: Modules, spec: string): (r: Load)
    ensures r.Loaded? <==> spec !in m.failures
    ensures r.Loaded? ==> r.backend == Module(spec)
  {
    if spec in m.failures then LoadFailed(m.failures[spec]) else Loaded(Module(spec))
  }
}

=== FILE: orchestrator.dfy ===
/**
  The `Compiler` of the extension: `compile` guards against an empty
  request, initialises the resolver, hands the request to the backend and
  lets `processCompilationOutput` decide, from the parsed response and the
  error and warning counts of its diagnostics, whether the build
  directory is written.
 */
module Orchestrator {
  import opened JsValues
  import opened Paths
  import opened FileSystem
  import opened Loader
  import opened RemoteFetch
  import opened SolcResolver
  import opened BuildOutput
  import opened BuildWriter

  /** What `errorsToDiagnostics` counts in `output.errors`. */
  datatype Counts = Counts(errors: nat, warnings: nat)

  /** The branches of `processCompilationOutput`. */
  datatype Classification =
    | NoOutput              // the parsed response has no keys
    | HardFailure           // `errors` present with at least one error
    | SuccessWithWarnings   // `errors` present, no error, some warnings
    | Unreported            // `errors` present, neither errors nor warnings
    | CleanSuccess          // no `errors` key, or a falsy one

  function Classify(out: CompilerOutput, counts: Counts): Classification {
    if IsEmpty(out) then NoOutput
    else if out.errors.Some? then
      if counts.errors > 0 then HardFailure
      else if counts.warnings > 0 then SuccessWithWarnings
      else Unreported
    else CleanSuccess
  }

  /** The branches that write the build directory and return its files. */
  predicate Writes(c: Classification) {
    c == SuccessWithWarnings || c == CleanSuccess
  }

  /** The output is written exactly when the response is not empty and
      either has no truthy `errors` value or reports warnings but no
      errors; an `errors` array with nothing in it writes nothing, while a
      response whose only keys are falsy or unrelated (`{"errors": null}`)
      is written. */
  lemma WritesIff(out: CompilerOutput, counts: Counts)
    ensures Writes(Classify(out, counts)) <==>
              !IsEmpty(out) && (out.errors.None? || (counts.errors == 0 && counts.warnings > 0))
    ensures out.errors.Some? && counts == Counts(0, 0) ==> Classify(out, counts) == Unreported
    ensures out.errors.None? && out.otherKeys ==> Classify(out, counts) == CleanSuccess
  {
  }

  /** How `processCompilationOutput` ends: `undefined`, the written files,
      or an exception from the write. */
  datatype Processed = ReturnsUndefined | ReturnsFiles(files: seq<Path>) | Throws(fault: Fault)

  datatype Processing = Processing(fs: Fs<Artifact>, kind: Classification, result: Processed)

  /** `processCompilationOutput(output, ..., buildDir, sourceDir,
      excludePath, singleContractFilePath)` with the workspace at `root`. */
  function ProcessCompilationOutput(fs: Fs<Artifact>, root: Path, buildDir: Path, out: CompilerOutput,
                                    counts: Counts, f: Filters): (p: Processing)
    requires WellFormed(fs)
    ensures WellFormed(p.fs)
    ensures p.kind == Classify(out, counts)
    ensures !Writes(p.kind) ==> p.fs == fs && p.result == ReturnsUndefined
    ensures p.result.ReturnsFiles? ==> Writes(p.kind) && p.result.files == ExpectedFiles(root, root + buildDir, f, ContractsOf(out))
    ensures Writes(p.kind) && !AstsPresent(out, f, ContractsOf(out)) ==> p.result.Throws?
    // a writing branch performs the write and passes on its files or its exception
    ensures Writes(p.kind) ==>
              var w := WriteCompilationOutput(fs, root, buildDir, out, f);
              p.fs == w.fs && p.result == if w.Done? then ReturnsFiles(w.files) else Throws(w.fault)
  {
    var kind := Classify(out, counts);
    if Writes(kind) then
      var w := WriteCompilationOutput(fs, root, buildDir, out, f);
      WriteReportsExpected(fs, root, buildDir, out, f);
      match w
      case Done(fs', files) => Processing(fs', kind, ReturnsFiles(files))
      case Thrown(fs', fault) => Processing(fs', kind, Throws(fault))
    else Processing(fs, kind, ReturnsUndefined)
  }

  /** What the backend's `compile(JSON.stringify(request))` does: throw,
      return text that is not JSON, or return a response. */
  datatype Reply = Threw(reason: string) | NotJson | Replied(output: CompilerOutput)

  /** The backend as a black box: what it replies to the request. */
  type Backends = Backend -> Reply

  /** The three configuration values `initialiseCompiler` reads. */
  datatype Settings = Settings(remote: Option<string>, local: Option<string>, enableNode: bool)

  /** The `Compiler` object: its resolver, created on first use, and the
      cache directory it is given. */
  datatype CompilerState = CompilerState(solc: Option<SolcState>, solcCachePath: Path)

  /** Why a settled `compile` rejects. */
  datatype Failure = BackendThrew(reason: string) | ResponseNotJson | WriteFailed(fault: Fault)

  /** How the promise of `compile` settles. Without a rejection handler on
      the initialisation, a failed initialisation leaves it pending. */
  datatype CompileOutcome =
    | NoSources                       // resolved with `undefined` before any work
    | Hangs                           // never settles
    | Fails(failure: Failure)
    | Succeeds(files: Option<seq<Path>>)

  /** The compiler, the resolver's disk and the build tree afterwards, and
      the outcome. */
  datatype Compilation = Compilation(state: CompilerState, disk: set<Path>, fs: Fs<Artifact>, outcome: CompileOutcome)

  /** `initialiseCompiler()` with the workspace at `root`: the resolver is
      created on first use, then asked to initialise with the settings. */
  function InitialiseCompiler(c: CompilerState, root: Path, settings: Settings, disk: set<Path>,
                              modules: Modules, responses: int -> Response): (r: (SolcState, Init))
    ensures c.solc.None? ==> r.0 == NewSolcCompiler(Some(root), c.solcCachePath)
    ensures c.solc.Some? ==> r.0 == c.solc.value
    // the resolver keeps the workspace root it was created with
    ensures r.1.state.rootPath == if c.solc.Some? then c.solc.value.rootPath else Some(root)
  {
    var s := if c.solc.Some? then c.solc.value else NewSolcCompiler(Some(root), c.solcCachePath);
    (s, IntialiseCompiler(s, settings.local, settings.remote, settings.enableNode, disk, modules, responses))
  }

  /** `compile(request, diagnostics, buildDir, rootDir, sourceDir,
      excludePath, singleContractFilePath)`. `request` holds the keys of the
      request object; `rootDir` is accepted and ignored. */
  function Compile(c: CompilerState, request: seq<(string, Json)>, root: Path, settings: Settings,
                   disk: set<Path>, modules: Modules, responses: int -> Response, backends: Backends,
                   counts: Counts, fs: Fs<Artifact>, buildDir: Path, rootDir: Path, f: Filters): (r: Compilation)
    requires WellFormed(fs)
    ensures WellFormed(r.fs)
    ensures request == [] <==> r.outcome.NoSources?
    ensures request == [] ==> r == Compilation(c, disk, fs, NoSources)
    // a settled compilation went through the backend loaded by the resolver
    ensures r.outcome.Succeeds? || r.outcome.Fails? ==>
              r.state.solc.Some? && r.state.solc.value.localSolc.Some?
    ensures r.outcome.Succeeds? ==> backends(r.state.solc.value.localSolc.value).Replied?
    // files are returned only for a successful response, and they are the expected descriptors
    ensures r.outcome.Succeeds? && r.outcome.files.Some? ==>
              var out := backends(r.state.solc.value.localSolc.value).output;
              Writes(Classify(out, counts)) && r.outcome.files.value == ExpectedFiles(root, root + buildDir, f, ContractsOf(out))
    ensures r.outcome.Succeeds? && r.outcome.files.None? ==>
              !Writes(Classify(backends(r.state.solc.value.localSolc.value).output, counts))
    // the build tree changes only when a response is written
    ensures r.fs != fs ==> (r.outcome.Succeeds? && r.outcome.files.Some?) || (r.outcome.Fails? && r.outcome.failure.WriteFailed?)
  {
    if request == [] then Compilation(c, disk, fs, NoSources)
    else
      var (s, i) := InitialiseCompiler(c, root, settings, disk, modules, responses);
      var c' := c.(solc := Some(i.state));
      match i.outcome
      case Rejected(_) => Compilation(c', i.disk, fs, Hangs)
      case NeverSettles => Compilation(c', i.disk, fs, Hangs)
      case Resolved =>
        match backends(i.state.localSolc.value)
        case Threw(reason) => Compilation(c', i.disk, fs, Fails(BackendThrew(reason)))
        case NotJson => Compilation(c', i.disk, fs, Fails(ResponseNotJson))
        case Replied(out) =>
          var p := ProcessCompilationOutput(fs, root, buildDir, out, counts, f);
          match p.result
          case ReturnsUndefined => Compilation(c', i.disk, p.fs, Succeeds(None))
          case ReturnsFiles(files) => Compilation(c', i.disk, p.fs, Succeeds(Some(files)))
          case Throws(fault) => Compilation(c', i.disk, p.fs, Fails(WriteFailed(fault)))
  }

  /** An empty request consults neither the resolver nor the backend: the
      result does not depend on the settings, the modules, the network or
      the backend. */
  lemma EmptyRequestTouchesNothing(c: CompilerState, root: Path, settings: Settings, settings': Settings,
                                   disk: set<Path>, modules: Modules, modules': Modules,
                                   responses: int -> Response, responses': int -> Response,
                                   backends: Backends, backends': Backends,
                                   counts: Counts, fs: Fs<Artifact>, buildDir: Path, rootDir: Path, f: Filters)
    requires WellFormed(fs)
    ensures Compile(c, [], root, settings, disk, modules, responses, backends, counts, fs, buildDir, rootDir, f)
         == Compile(c, [], root, settings', disk, modules', responses', backends', counts, fs, buildDir, rootDir, f)
  {
  }

  /** `rootDir` plays no part in a compilation. */
  lemma RootDirIgnored(c: CompilerState, request: seq<(string, Json)>, root: Path, settings: Settings,
                       disk: set<Path>, modules: Modules, responses: int -> Response, backends: Backends,
                       counts: Counts, fs: Fs<Artifact>, buildDir: Path, rootDir: Path, rootDir': Path, f: Filters)
    requires WellFormed(fs)
    ensures Compile(c, request, root, settings, disk, modules, responses, backends, counts, fs, buildDir, rootDir, f)
         == Compile(c, request, root, settings, disk, modules, responses, backends, counts, fs, buildDir, rootDir', f)
  {
  }

  /** A failed or unsettled initialisation leaves `compile` pending with
      the build tree untouched and the backend never asked. */
  lemma FailedInitialisationHangs(c: CompilerState, request: seq<(string, Json)>, root: Path, settings: Settings,
                                  disk: set<Path>, modules: Modules, responses: int -> Response, backends: Backends,
                                  counts: Counts, fs: Fs<Artifact>, buildDir: Path, rootDir: Path, f: Filters)
    requires WellFormed(fs) && request != []
    requires !InitialiseCompiler(c, root, settings, disk, modules, responses).1.outcome.Resolved?
    ensures var r := Compile(c, request, root, settings, disk, modules, responses, backends, counts, fs, buildDir, rootDir, f);
            r.outcome == Hangs && r.fs == fs
  {
  }

  /** A response reporting errors, or one with an `errors` key and nothing
      in it, leaves the build tree as it was and resolves `undefined`. */
  lemma NoWriteWithoutSuccess(c: CompilerState, request: seq<(string, Json)>, root: Path, settings: Settings,
                              disk: set<Path>, modules: Modules, responses: int -> Response, backends: Backends,
                              counts: Counts, fs: Fs<Artifact>, buildDir: Path, rootDir: Path, f: Filters)
    requires WellFormed(fs) && request != []
    requires var i := InitialiseCompiler(c, root, settings, disk, modules, responses).1;
             i.outcome.Resolved? && backends(i.state.localSolc.value).Replied? &&
             !Writes(Classify(backends(i.state.localSolc.value).output, counts))
    ensures var r := Compile(c, request, root, settings, disk, modules, responses, backends, counts, fs, buildDir, rootDir, f);
            r.outcome == Succeeds(None) && r.fs == fs
  {
  }

  /** Once initialised, compiling the same non-empty request again with
      the same settings and an unchanged disk reuses the loaded backend. */
  lemma SecondCompileReusesBackend(c: CompilerState, request: seq<(string, Json)>, root: Path, settings: Settings,
                                   disk: set<Path>, modules: Modules, responses: int -> Response, backends: Backends,
                                   counts: Counts, fs: Fs<Artifact>, buildDir: Path, rootDir: Path, f: Filters)
    requires WellFormed(fs) && request != []
    requires InitialiseCompiler(c, root, settings, disk, modules, responses).1.outcome.Resolved?
    ensures var r := Compile(c, request, root, settings, disk, modules, responses, backends, counts, fs, buildDir, rootDir, f);
            var s := r.state.solc.value;
            InitialisedAlready(s, settings.local, settings.remote, settings.enableNode, r.disk)
  {
    var (s, i) := InitialiseCompiler(c, root, settings, disk, modules, responses);
    CompileAfterInitialisation(c, request, root, settings, disk, modules, responses, backends, counts, fs, buildDir, rootDir, f);
    InitialiseIdempotent(s, settings.local, settings.remote, settings.enableNode, disk, modules, responses);
  }

  /** Once the resolver has loaded a backend, `compile` hands the request
      to it: a reply that throws or is not JSON rejects, and a parsed reply
      goes through `processCompilationOutput`, whose tree `compile` keeps
      and whose files, `undefined` or exception it settles with. */
  lemma CompileAfterInitialisation(c: CompilerState, request: seq<(string, Json)>, root: Path, settings: Settings,
                                   disk: set<Path>, modules: Modules, responses: int -> Response, backends: Backends,
                                   counts: Counts, fs: Fs<Artifact>, buildDir: Path, rootDir: Path, f: Filters)
    requires WellFormed(fs) && request != []
    requires InitialiseCompiler(c, root, settings, disk, modules, responses).1.outcome.Resolved?
    ensures var i := InitialiseCompiler(c, root, settings, disk, modules, responses).1;
            var r := Compile(c, request, root, settings, disk, modules, responses, backends, counts, fs, buildDir, rootDir, f);
            && r.state == c.(solc := Some(i.state)) && r.disk == i.disk
            && match backends(i.state.localSolc.value)
               case Threw(reason) => r.fs == fs && r.outcome == Fails(BackendThrew(reason))
               case NotJson => r.fs == fs && r.outcome == Fails(ResponseNotJson)
               case Replied(out) =>
                 var p := ProcessCompilationOutput(fs, root, buildDir, out, counts, f);
                 && r.fs == p.fs
                 && r.outcome == match p.result
                                 case ReturnsUndefined => Succeeds(None)
                                 case ReturnsFiles(files) => Succeeds(Some(files))
                                 case Throws(fault) => Fails(WriteFailed(fault))
  {
  }

  /** A writing reply on a tree where the write completes makes `compile`
      resolve with the expected descriptor paths, leaving the tree the write
      left. */
  lemma CompileWritesReply(c: CompilerState, request: seq<(string, Json)>, root: Path, settings: Settings,
                           disk: set<Path>, modules: Modules, responses: int -> Response, backends: Backends,
                           counts: Counts, fs: Fs<Artifact>, buildDir: Path, rootDir: Path, f: Filters, out: CompilerOutput)
    requires WellFormed(fs) && request != []
    requires var i := InitialiseCompiler(c, root, settings, disk, modules, responses).1;
             i.outcome.Resolved? && backends(i.state.localSolc.value) == Replied(out)
    requires Writes(Classify(out, counts)) && WriteCompilationOutput(fs, root, buildDir, out, f).Done?
    ensures var r := Compile(c, request, root, settings, disk, modules, responses, backends, counts, fs, buildDir, rootDir, f);
            && r.fs == WriteCompilationOutput(fs, root, buildDir, out, f).fs
            && r.outcome == Succeeds(Some(ExpectedFiles(root, root + buildDir, f, ContractsOf(out))))
  {
    CompileAfterInitialisation(c, request, root, settings, disk, modules, responses, backends, counts, fs, buildDir, rootDir, f);
    WriteReportsExpected(fs, root, buildDir, out, f);
  }
}

=== FILE: output.dfy ===
/**
  Materialisation of a compiler response into the build directory
  (`writeCompilationOutputToBuildDirectory`): the raw response snapshot,
  then, for every contract of every source that passes the three filters,
  a `.bin`/`.abi`/`.json` triple in the directory that mirrors the
  source's position under the workspace root.
 */
module BuildOutput {
  import opened JsValues
  import opened Paths

  /** The `metadata` string of a contract and what `JSON.parse` makes of it
      (`None`: parsing throws). */
  datatype Metadata = Metadata(text: string, parsed: Option<Json>)

  /** One entry of `output.contracts[source]`. */
  datatype Contract = Contract(
    abi: Json,
    metadata: Metadata,
    bytecode: string,           // evm.bytecode.object
    deployedBytecode: string,   // evm.deployedBytecode.object
    sourceMap: string,          // evm.bytecode.sourceMap
    deployedSourceMap: string,  // evm.deployedBytecode.sourceMap
    methodIdentifiers: Json,
    gasEstimates: Json)

  /** `output.contracts[source]`, contract names in iteration order. */
  datatype SourceEntry = SourceEntry(source: Path, contracts: seq<(string, Contract)>)

  /** The parsed compiler response: a truthy `errors` array, `contracts`
      (sources in iteration order) and `sources` (each source's `ast`
      field), each `None` when the key is absent or its value is falsy;
      `otherKeys` says whether the object has any key besides those given
      here, which includes an `errors`, `contracts` or `sources` key whose
      value is falsy (`{"errors": null}` has one key). */
  datatype CompilerOutput = CompilerOutput(
    errors: Option<seq<Json>>,
    contracts: Option<seq<SourceEntry>>,
    sources: Option<map<Path, Option<Json>>>,
    otherKeys: bool)

  /** `Object.keys(output).length === 0`. */
  predicate IsEmpty(o: CompilerOutput) {
    o.errors.None? && o.contracts.None? && o.sources.None? && !o.otherKeys
  }

  /** `for (const source in output.contracts)` visits nothing when the key
      is absent. */
  function ContractsOf(o: CompilerOutput): seq<SourceEntry> {
    if o.contracts.Some? then o.contracts.value else []
  }

  /** `output.sources[source].ast`: `None` when the read throws because
      `output.sources` or its entry for `source` is undefined; `Some(None)`
      when the entry has no `ast`. */
  function AstOf(o: CompilerOutput, source: Path): Option<Option<Json>> {
    if o.sources.Some? && source in o.sources.value then Some(o.sources.value[source]) else None
  }

  /** The consolidated `.json` descriptor of one contract. */
  datatype Descriptor = Descriptor(
    contractName: string,
    abi: Json,
    metadata: string,
    bytecode: string,
    deployedBytecode: string,
    sourceMap: string,
    deployedSourceMap: string,
    sourcePath: Path,
    compilerName: string,
    compilerVersion: Option<Json>,
    ast: Option<Json>,
    functionHashes: Json,
    gasEstimates: Json)

  /** What a file of the build tree holds. JSON serialisation is not
      modelled: a serialised value is kept as the value. */
  datatype Artifact =
    | Bytecode(text: string)
    | AbiText(abi: Json)
    | DescriptorFile(descriptor: Descriptor)
    | RawOutput(output: CompilerOutput)
    | Unrelated(text: string)

  const CompilerName: string := "solc"

  /** `JSON.parse(metadata).compiler.version`, or `''` when that throws:
      when parsing fails, when the result is `null`, or when `compiler` is
      missing or `null`. A present `compiler` without `version` gives
      `undefined` (`None`). */
  function CompilerVersion(m: Metadata): (v: Option<Json>)
    ensures m.parsed.None? ==> v == Some(JString(""))
    ensures m.parsed.Some? && Member(m.parsed.value, "compiler").Some? && Member(m.parsed.value, "compiler").value.JObject? ==>
              v == Member(Member(m.parsed.value, "compiler").value, "version")
    ensures m.parsed.Some? && Member(m.parsed.value, "compiler").None? ==> v == Some(JString(""))
  {
    match m.parsed
    case None => Some(JString(""))
    case Some(j) =>
      match Member(j, "compiler")
      case None => Some(JString(""))
      case Some(c) => if c.JNull? then Some(JString("")) else Member(c, "version")
  }

  /** Metadata whose `compiler.version` is a string yields that string. */
  lemma CompilerVersionOfWellFormedMetadata(text: string, version: string, otherKeys: seq<(string, Json)>)
    requires forall i :: 0 <= i < |otherKeys| ==> otherKeys[i].0 != "compiler"
    ensures CompilerVersion(Metadata(text, Some(JObject(otherKeys + [("compiler", JObject([("version", JString(version))]))])))) == Some(JString(version))
  {
    var j := JObject(otherKeys + [("compiler", JObject([("version", JString(version))]))]);
    assert Member(j, "compiler") == Some(JObject([("version", JString(version))]));
  }

  function Describe(name: string, c: Contract, source: Path, ast: Option<Json>): Descriptor {
    Descriptor(name, c.abi, c.metadata.text, c.bytecode, c.deployedBytecode, c.sourceMap, c.deployedSourceMap,
               source, CompilerName, CompilerVersion(c.metadata), ast, c.methodIdentifiers, c.gasEstimates)
  }

  /** The three source filters; `singleContractFile == Some([])` stands for
      the empty string. */
  datatype Filters = Filters(sourceDir: Option<string>, excludePath: Option<string>, singleContractFile: Option<Path>)

  /** The single-file filter is truthy. */
  predicate SingleSet(f: Filters) {
    f.singleContractFile.Some? && f.singleContractFile.value != []
  }

  /** The three nested tests of the write loop, as the extension writes
      them. */
  function Survives(f: Filters, source: Path): bool {
    if !SingleSet(f) || f.singleContractFile == Some(source) then
      if !Truthy(f.excludePath) || !StartsWith(Render(source), f.excludePath.value) then
        if !Truthy(f.sourceDir) || StartsWith(Render(source), f.sourceDir.value) then true
        else false
      else false
    else false
  }

  /** A source survives iff each filter is unset (absent or empty) or
      passes: it is the single file, it is not under the excluded path, it
      is under the source directory. */
  lemma SurvivesIff(f: Filters, source: Path)
    ensures Survives(f, source) <==>
              && (f.singleContractFile.None? || f.singleContractFile.value == [] || f.singleContractFile.value == source)
              && (Blank(f.excludePath) || !StartsWith(Render(source), f.excludePath.value))
              && (Blank(f.sourceDir) || StartsWith(Render(source), f.sourceDir.value))
  {
  }

  /** Through JavaScript falsiness an empty filter is no filter. */
  lemma EmptyFilterIsNoFilter(f: Filters, source: Path)
    ensures Survives(f.(excludePath := Some("")), source) == Survives(f.(excludePath := None), source)
    ensures Survives(f.(sourceDir := Some("")), source) == Survives(f.(sourceDir := None), source)
    ensures Survives(f.(singleContractFile := Some([])), source) == Survives(f.(singleContractFile := None), source)
  {
  }

  /** `path.dirname(path.join(binPath, path.relative(root, source)))`. */
  function MirrorDir(root: Path, bin: Path, source: Path): Path {
    Dirname(Resolve(bin, RelativePath(root, source)))
  }

  /** A source below the root is mirrored below the build directory. */
  lemma MirrorDirUnderRoot(root: Path, bin: Path, source: Path)
    requires IsPrefix(root, source) && |root| < |source|
    ensures MirrorDir(root, bin, source) == bin + source[|root|..|source| - 1]
  {
    RelativeUnderRoot(root, source);
    assert Resolve(bin, RelativePath(root, source)) == bin + source[|root|..];
    assert (bin + source[|root|..])[..|bin + source[|root|..]| - 1] == bin + source[|root|..|source| - 1];
  }

  function AbiPath(dir: Path, name: string): Path { dir + [name + ".abi"] }
  function BinPath(dir: Path, name: string): Path { dir + [name + ".bin"] }
  function JsonPath(dir: Path, name: string): Path { dir + [name + ".json"] }

  /** Strings with different last characters differ. */
  lemma LastCharDiffers(a: string, b: string, k: nat)
    requires 1 <= k <= |a| && 1 <= k <= |b|
    requires a[|a| - k] != b[|b| - k]
    ensures a != b
  {
  }

  /** A descriptor path is never the `.bin` or `.abi` path of any contract,
      and the three paths of one contract are distinct. */
  lemma ArtifactPathsDistinct(dir: Path, name: string, dir': Path, name': string)
    ensures JsonPath(dir, name) != BinPath(dir', name')
    ensures JsonPath(dir, name) != AbiPath(dir', name')
    ensures BinPath(dir, name) != AbiPath(dir', name')
  {
    var j, b, a := name + ".json", name' + ".bin", name' + ".abi";
    var b0 := name + ".bin";
    LastCharDiffers(j, b, 2);
    LastCharDiffers(j, a, 1);
    LastCharDiffers(b0, a, 1);
    assert JsonPath(dir, name)[|JsonPath(dir, name)| - 1] == j;
    assert BinPath(dir, name)[|BinPath(dir, name)| - 1] == b0;
    assert BinPath(dir', name')[|BinPath(dir', name')| - 1] == b;
    assert AbiPath(dir', name')[|AbiPath(dir', name')| - 1] == a;
  }
}

=== FILE: paths.dfy ===
/**
  POSIX paths as sequences of segments. A `Path` is absolute and already
  normalised: each segment is a plain name (no `/`, no `.` or `..`), and
  the file-system root `/` is the empty sequence. Relative paths, as
  `path.relative` produces them, are a number of `..` steps followed by
  plain segments.
 */
module Paths {
  type Path = seq<string>

  /** `path.dirname`: the parent directory; the root is its own parent. */
  function Dirname(p: Path): (d: Path)
    ensures p != [] ==> |d| + 1 == |p|
    ensures IsPrefix(d, p)
  {
    if p == [] then [] else p[..|p| - 1]
  }

  /** `path.basename` without an extension argument; the root has the empty name. */
  function Basename(p: Path): string {
    if p == [] then "" else p[|p| - 1]
  }

  /** `a` is an ancestor of `b` or `b` itself. */
  predicate IsPrefix(a: Path, b: Path) {
    |a| <= |b| && b[..|a|] == a
  }

  /** The string form of a path, as the extension compares it with
      `startsWith` and `===`. The root renders as the empty string. */
  function Render(p: Path): string {
    if p == [] then "" else Render(p[..|p| - 1]) + "/" + p[|p| - 1]
  }

  /** `path.basename(p, ext)`: the last segment with a trailing `ext` removed,
      unless that would leave nothing. */
  function BasenameWithout(p: Path, ext: string): (r: string)
    ensures |r| <= |Basename(p)|
  {
    var base := Basename(p);
    if ext != "" && |ext| < |base| && base[|base| - |ext|..] == ext then base[..|base| - |ext|] else base
  }

  /** A relative path: `up` steps of `..`, then the segments `down`. */
  datatype Relative = Relative(up: nat, down: Path)

  /** Length of the longest common ancestor of `a` and `b`. */
  function CommonPrefixLength(a: Path, b: Path): (n: nat)
    ensures n <= |a| && n <= |b|
    ensures a[..n] == b[..n]
    ensures n < |a| && n < |b| ==> a[n] != b[n]
  {
    if a == [] || b == [] || a[0] != b[0] then 0
    else
      var n := CommonPrefixLength(a[1..], b[1..]);
      assert a[..n + 1] == [a[0]] + a[1..][..n];
      assert b[..n + 1] == [b[0]] + b[1..][..n];
      n + 1
  }

  /** `path.relative(from, to)`: climb from `from` to the common ancestor,
      then descend to `to`. */
  function RelativePath(from: Path, to: Path): Relative {
    var n := CommonPrefixLength(from, to);
    Relative(|from| - n, to[n..])
  }

  /** `path.join(base, rel)` followed by normalisation: each `..` removes one
      segment, and `..` at the root stays at the root. */
  function Resolve(base: Path, rel: Relative): (r: Path)
    ensures rel.up <= |base| ==> r == base[..|base| - rel.up] + rel.down
    ensures rel.up > |base| ==> r == rel.down
  {
    var keep := if rel.up <= |base| then |base| - rel.up else 0;
    base[..keep] + rel.down
  }

  /** Round trip: resolving the relative path from `from` to `to` against
      `from` gives back `to`. */
  lemma ResolveRelative(from: Path, to: Path)
    ensures Resolve(from, RelativePath(from, to)) == to
  {
    var n := CommonPrefixLength(from, to);
    assert from[..n] + to[n..] == to[..n] + to[n..];
    assert to[..n] + to[n..] == to;
  }

  /** A path inside `root` is reached from `root` without any `..` step. */
  lemma RelativeUnderRoot(root: Path, p: Path)
    requires IsPrefix(root, p)
    ensures RelativePath(root, p) == Relative(0, p[|root|..])
  {
    var n := CommonPrefixLength(root, p);
    assert n == |root|;
  }

  /** `path.basename(d + [n + ext], ext)` gives back `n` for a non-empty `n`. */
  lemma BasenameWithoutExtension(d: Path, n: string, ext: string)
    requires n != "" && ext != ""
    ensures BasenameWithout(d + [n + ext], ext) == n
  {
    var base := Basename(d + [n + ext]);
    assert base == n + ext;
    assert base[|base| - |ext|..] == ext;
    assert base[..|base| - |ext|] == n;
  }
}

=== FILE: releases.dfy ===
/**
  Choosing a remote compiler version (`selectRemoteVersion`): the quick
  pick offers `none`, `latest` and every key of the published release
  list, and the choice is turned into the value stored as
  `compileUsingRemoteVersion` by stripping the release file name down to
  its version.
 */
module Releases {
  import opened JsValues
  import opened RemoteFetch

  /** The version in a release file name: the first `soljson-` and then
      the first `.js` removed. */
  function ReleaseVersion(filename: string): string {
    ReplaceFirst(ReplaceFirst(filename, ArtifactPrefix, ""), ArtifactSuffix, "")
  }

  /** The keys of the release list, in order; a list that is not an object
      contributes none. */
  function ReleaseKeys(releases: Json): (ks: seq<string>)
    ensures releases.JObject? ==> |ks| == |releases.members|
    ensures releases.JObject? ==> forall i :: 0 <= i < |ks| ==> ks[i] == releases.members[i].0
    ensures !releases.JObject? ==> ks == []
  {
    if releases.JObject? then seq(|releases.members|, i requires 0 <= i < |releases.members| => releases.members[i].0)
    else []
  }

  /** What the quick pick offers. */
  function Choices(releases: Json): (cs: seq<string>)
    ensures |cs| >= 2 && cs[0] == "none" && cs[1] == "latest"
    ensures forall k :: k in ReleaseKeys(releases) ==> k in cs
    ensures forall x :: x in cs <==> x == "none" || x == "latest" || x in ReleaseKeys(releases)
  {
    ["none", "latest"] + ReleaseKeys(releases)
  }

  /** What the selection handler does: store a value, or throw before
      storing anything. */
  datatype Update = SetsRemoteVersion(value: string) | HandlerThrows

  /** The selection handler for `selected` (`None`: the pick was
      dismissed). A dismissed pick looks up the key `undefined`; a value
      that is missing or not a string has no `replace` and throws; the
      string `undefined` stores the empty setting. */
  function SelectRemoteVersion(releases: Json, selected: Option<string>): (u: Update)
    ensures selected == Some("none") ==> u == SetsRemoteVersion("")
    ensures selected == Some("latest") ==> u == SetsRemoteVersion("latest")
    ensures selected.Some? && selected.value != "none" && selected.value != "latest" ==>
              (u.SetsRemoteVersion? <==> Member(releases, selected.value).Some? && Member(releases, selected.value).value.JString?)
    ensures selected.Some? && selected.value != "none" && selected.value != "latest" && u.SetsRemoteVersion? ==>
              var file := Member(releases, selected.value).value.s;
              u.value == if file == "undefined" then "" else ReleaseVersion(file)
  {
    var key := if selected.Some? then selected.value else "undefined";
    if key == "none" && selected.Some? then SetsRemoteVersion("")
    else if key == "latest" && selected.Some? then SetsRemoteVersion("latest")
    else
      match Member(releases, key)
      case Some(JString(file)) => if file == "undefined" then SetsRemoteVersion("") else SetsRemoteVersion(ReleaseVersion(file))
      case _ => HandlerThrows
  }

  /** Appending the suffix to a version without it creates no earlier
      occurrence. */
  lemma SuffixFirstAtEnd(v: string)
    requires !Contains(v, ArtifactSuffix)
    ensures forall i: nat :: i < |v| ==> !OccursAt(v + ArtifactSuffix, ArtifactSuffix, i)
  {
    var s := v + ArtifactSuffix;
    forall i: nat | i < |v| ensures !OccursAt(s, ArtifactSuffix, i) {
      if i + 3 <= |v| {
        assert s[i..i + 3] == v[i..i + 3];
        assert !OccursAt(v, ArtifactSuffix, i);
      } else if i == |v| - 1 {
        assert s[i + 1] == '.' != 'j';
      } else {
        assert s[i + 2] == '.' != 's';
      }
    }
  }

  /** A first occurrence stays first when text is appended. */
  lemma FirstOccurrenceExtends(t: string, u: string, pat: string, k: nat)
    requires OccursAt(t, pat, k) && forall j: nat :: j < k ==> !OccursAt(t, pat, j)
    ensures OccursAt(t + u, pat, k) && forall j: nat :: j < k ==> !OccursAt(t + u, pat, j)
  {
    forall j: nat | j < k ensures !OccursAt(t + u, pat, j) {
      assert !OccursAt(t, pat, j);
      assert (t + u)[j..j + |pat|] == t[j..j + |pat|];
    }
    assert (t + u)[k..k + |pat|] == t[k..k + |pat|];
  }

  /** Removing the prefix from a release file name. */
  lemma StripPrefix(x: string)
    ensures ReplaceFirst(ArtifactName(x), ArtifactPrefix, "") == x + ArtifactSuffix
  {
    var name := ArtifactName(x);
    assert name[..|ArtifactPrefix|] == ArtifactPrefix && name[|ArtifactPrefix|..] == x + ArtifactSuffix;
    ReplaceFirstAt(name, ArtifactPrefix, "", 0);
    assert name[..0] + "" + name[|ArtifactPrefix|..] == x + ArtifactSuffix;
  }

  /** In `v + ".js" + u` the first `.js` is the one after `v`, when `v`
      holds none; removing it leaves `v + u`. */
  lemma StripFirstSuffix(v: string, u: string)
    requires !Contains(v, ArtifactSuffix)
    ensures ReplaceFirst(v + ArtifactSuffix + u, ArtifactSuffix, "") == v + u
  {
    var t := v + ArtifactSuffix;
    SuffixFirstAtEnd(v);
    assert t[|v|..|v| + 3] == ArtifactSuffix;
    FirstOccurrenceExtends(t, u, ArtifactSuffix, |v|);
    ReplaceFirstAt(t + u, ArtifactSuffix, "", |v|);
    assert (t + u)[..|v|] + "" + (t + u)[|v| + 3..] == v + u;
  }

  /** The release file of version `v` is stripped back to `v`, as long as
      `v` itself holds no `.js`. */
  lemma ReleaseVersionOfArtifactName(v: string)
    requires !Contains(v, ArtifactSuffix)
    ensures ReleaseVersion(ArtifactName(v)) == v
  {
    StripPrefix(v);
    StripFirstSuffix(v, "");
    assert v + ArtifactSuffix + "" == v + ArtifactSuffix && v + "" == v;
  }

  /** For a version that holds `.js`, the strip removes its first `.js`
      and keeps the file suffix instead: the version is recovered only
      when that `.js` ends it. */
  lemma ReleaseVersionMovesFirstSuffix(v: string, w: string)
    requires !Contains(v, ArtifactSuffix)
    ensures ReleaseVersion(ArtifactName(v + ArtifactSuffix + w)) == v + w + ArtifactSuffix
  {
    var x := v + ArtifactSuffix + w;
    var stripped := ReplaceFirst(ArtifactName(x), ArtifactPrefix, "");
    StripPrefix(x);
    assert stripped == v + ArtifactSuffix + (w + ArtifactSuffix);
    StripFirstSuffix(v, w + ArtifactSuffix);
    assert v + (w + ArtifactSuffix) == v + w + ArtifactSuffix;
  }

  /** Picking a release listed under its file name stores its version. */
  lemma SelectListedRelease(key: string, v: string, others: seq<(string, Json)>)
    requires key != "none" && key != "latest"
    requires !Contains(v, ArtifactSuffix) && ArtifactName(v) != "undefined"
    requires forall i :: 0 <= i < |others| ==> others[i].0 != key
    ensures SelectRemoteVersion(JObject(others + [(key, JString(ArtifactName(v)))]), Some(key)) == SetsRemoteVersion(v)
  {
    ReleaseVersionOfArtifactName(v);
  }
}

=== FILE: remote.dfy ===
/**
  The remote fetcher of `SolcCompiler`: a compiler release `v` is cached
  as `soljson-<v>.js` in the cache directory and downloaded from the
  binaries site under the same name; `loadRemoteWasmVersionRetry` re-runs
  the fetch after a failure while its attempt number does not exceed the
  maximum.

  The disk is the set of paths that exist. Network answers are given per
  attempt number, and module loading by `Loader.Modules`.
 */
module RemoteFetch {
  import opened JsValues
  import opened Paths
  import opened Loader

  /** The version that is never served from the cache. */
  const LatestVersion: string := "latest"
  const ArtifactPrefix: string := "soljson-"
  const ArtifactSuffix: string := ".js"
  const BinariesBaseUrl: string := "https://binaries.soliditylang.org/bin/"
  /** Prefix of the rejection for a non-200 answer. */
  const RetrievalError: string := "Error retrieving solidity compiler: "

  /** File name of release `v`, shared by the cache and the download URL. */
  function ArtifactName(v: string): string {
    ArtifactPrefix + v + ArtifactSuffix
  }

  function CachePath(cacheDir: Path, v: string): Path {
    cacheDir + [ArtifactName(v)]
  }

  function DownloadUrl(v: string): string {
    BinariesBaseUrl + ArtifactName(v)
  }

  /** The cache file and the URL name the same artifact. */
  lemma CacheAndUrlAgree(cacheDir: Path, v: string)
    ensures Basename(CachePath(cacheDir, v)) == ArtifactName(v)
    ensures DownloadUrl(v) == BinariesBaseUrl + Basename(CachePath(cacheDir, v))
    ensures Dirname(CachePath(cacheDir, v)) == cacheDir
  {
  }

  /** The cache-hit test: the file exists and the version is not `latest`. */
  predicate CacheHit(disk: set<Path>, cacheDir: Path, v: string) {
    CachePath(cacheDir, v) in disk && v != LatestVersion
  }

  /** What the network does for one download. */
  datatype Response = HttpResponse(statusCode: int, statusMessage: string) | NetworkError(reason: string)

  /** One run of `loadRemoteWasmVersion`: the disk afterwards, the load
      result, and the URL fetched (`None` when served from the cache). */
  datatype Attempt = Attempt(disk: set<Path>, result: Load, url: Option<string>) {
    predicate Downloaded() { url.Some? }
  }

  /** `loadRemoteWasmVersion(v)`. The write stream that receives a download
      creates the cache file before the answer is known, so the file exists
      after every download, failed or not. */
  function LoadRemoteWasmVersion(cacheDir: Path, v: string, disk: set<Path>, modules: Modules, response: Response): (a: Attempt)
    ensures a.Downloaded() <==> !CacheHit(disk, cacheDir, v)
    ensures a.Downloaded() ==> a.url == Some(DownloadUrl(v))
    ensures v == LatestVersion ==> a.Downloaded()
    ensures !a.Downloaded() ==> a.disk == disk && a.result == Require(modules, Render(CachePath(cacheDir, v)))
    ensures a.Downloaded() ==> a.disk == disk + {CachePath(cacheDir, v)}
    ensures a.Downloaded() && response.HttpResponse? && response.statusCode != 200 ==>
              a.result == LoadFailed(RetrievalError + response.statusMessage)
    ensures a.Downloaded() && response.NetworkError? ==> a.result == LoadFailed(response.reason)
    ensures a.Downloaded() && response.HttpResponse? && response.statusCode == 200 ==>
              a.result == Require(modules, Render(CachePath(cacheDir, v)))
    ensures a.result.Loaded? ==> a.result.backend == Module(Render(CachePath(cacheDir, v)))
  {
    var path := CachePath(cacheDir, v);
    if path in disk && v != LatestVersion then
      Attempt(disk, Require(modules, Render(path)), None)
    else
      var disk', url := disk + {path}, Some(DownloadUrl(v));
      match response
      case NetworkError(reason) => Attempt(disk', LoadFailed(reason), url)
      case HttpResponse(code, message) =>
        if code != 200 then Attempt(disk', LoadFailed(RetrievalError + message), url)
        else Attempt(disk', Require(modules, Render(path)), url)
  }

  /** How the promise returned by one call of `loadRemoteWasmVersionRetry`
      settles. A call whose attempt failed and that starts a retry returns
      the retry's promise from its `catch` handler without passing it on, so
      it never settles. */
  datatype Settlement = Resolves(backend: Backend) | Rejects(reason: string) | Pending

  /** The calls of one retry chain: the disk at the end, one settlement per
      call (the outermost first) and the attempt each call made. */
  datatype Chain = Chain(disk: set<Path>, calls: seq<Settlement>, attempts: seq<Attempt>)

  /** Largest number of attempts a chain starting at `retryNumber` makes. */
  function MaxAttempts(retryNumber: int, maxRetries: int): nat {
    if retryNumber <= maxRetries then maxRetries - retryNumber + 2 else 1
  }

  /** `loadRemoteWasmVersionRetry(v, retryNumber, maxRetries)`; the network
      answers the attempt numbered `k` with `responses(k)`. */
  function RetryChain(cacheDir: Path, v: string, retryNumber: int, maxRetries: int,
                      disk: set<Path>, modules: Modules, responses: int -> Response): (c: Chain)
    ensures 1 <= |c.calls| <= MaxAttempts(retryNumber, maxRetries)
    ensures |c.attempts| == |c.calls|
    decreases if retryNumber <= maxRetries then maxRetries - retryNumber + 1 else 0
  {
    var a := LoadRemoteWasmVersion(cacheDir, v, disk, modules, responses(retryNumber));
    match a.result
    case Loaded(b) => Chain(a.disk, [Resolves(b)], [a])
    case LoadFailed(reason) =>
      if retryNumber <= maxRetries then
        var rest := RetryChain(cacheDir, v, retryNumber + 1, maxRetries, a.disk, modules, responses);
        Chain(rest.disk, [Pending] + rest.calls, [a] + rest.attempts)
      else
        Chain(a.disk, [Rejects(reason)], [a])
  }

  /** One step of the chain: the first call's attempt, then either its
      own settlement or the rest of the chain. */
  lemma RetryChainUnfold(cacheDir: Path, v: string, retryNumber: int, maxRetries: int,
                         disk: set<Path>, modules: Modules, responses: int -> Response)
    ensures var a := LoadRemoteWasmVersion(cacheDir, v, disk, modules, responses(retryNumber));
            var c := RetryChain(cacheDir, v, retryNumber, maxRetries, disk, modules, responses);
            && (a.result.Loaded? ==> c == Chain(a.disk, [Resolves(a.result.backend)], [a]))
            && (a.result.LoadFailed? && retryNumber > maxRetries ==> c == Chain(a.disk, [Rejects(a.result.reason)], [a]))
            && (a.result.LoadFailed? && retryNumber <= maxRetries ==>
                  var rest := RetryChain(cacheDir, v, retryNumber + 1, maxRetries, a.disk, modules, responses);
                  c == Chain(rest.disk, [Pending] + rest.calls, [a] + rest.attempts))
  {
  }

  /** How a chain settles: every call but the last stays pending after a
      failed attempt; the last resolves with the backend its attempt loaded
      or, only once the attempts are exhausted, rejects with its attempt's
      reason unchanged. */
  lemma {:induction false} RetryChainSettles(cacheDir: Path, v: string, retryNumber: int, maxRetries: int,
                                             disk: set<Path>, modules: Modules, responses: int -> Response)
    ensures var c := RetryChain(cacheDir, v, retryNumber, maxRetries, disk, modules, responses);
            var last := |c.calls| - 1;
            && c.attempts[0] == LoadRemoteWasmVersion(cacheDir, v, disk, modules, responses(retryNumber))
            && (forall i :: 0 <= i < last ==> c.calls[i].Pending? && c.attempts[i].result.LoadFailed?)
            && (c.calls[last].Resolves? <==> c.attempts[last].result.Loaded?)
            && (c.calls[last].Resolves? ==> c.attempts[last].result == Loaded(c.calls[last].backend))
            && (c.calls[last].Rejects? ==> c.attempts[last].result == LoadFailed(c.calls[last].reason))
            && (c.calls[last].Rejects? ==> |c.calls| == MaxAttempts(retryNumber, maxRetries))
            && !c.calls[last].Pending?
            && c.disk == c.attempts[last].disk
    decreases if retryNumber <= maxRetries then maxRetries - retryNumber + 1 else 0
  {
    var a := LoadRemoteWasmVersion(cacheDir, v, disk, modules, responses(retryNumber));
    var c := RetryChain(cacheDir, v, retryNumber, maxRetries, disk, modules, responses);
    if a.result.LoadFailed? && retryNumber <= maxRetries {
      var rest := RetryChain(cacheDir, v, retryNumber + 1, maxRetries, a.disk, modules, responses);
      RetryChainSettles(cacheDir, v, retryNumber + 1, maxRetries, a.disk, modules, responses);
      assert c.calls == [Pending] + rest.calls && c.attempts == [a] + rest.attempts;
      forall i | 0 < i < |c.calls| ensures c.calls[i] == rest.calls[i - 1] && c.attempts[i] == rest.attempts[i - 1] {
      }
    }
  }

  /** The outermost call resolves exactly when the first attempt loads;
      when that attempt fails and a retry is allowed, it never settles, so
      it never rejects. */
  lemma OutermostSettlement(cacheDir: Path, v: string, retryNumber: int, maxRetries: int,
                            disk: set<Path>, modules: Modules, responses: int -> Response)
    ensures var c := RetryChain(cacheDir, v, retryNumber, maxRetries, disk, modules, responses);
            var first := LoadRemoteWasmVersion(cacheDir, v, disk, modules, responses(retryNumber));
            && (c.calls[0].Resolves? <==> first.result.Loaded?)
            && (first.result.LoadFailed? && retryNumber <= maxRetries ==> c.calls[0] == Pending)
            && (c.calls[0].Rejects? ==> retryNumber > maxRetries)
  {
    RetryChainSettles(cacheDir, v, retryNumber, maxRetries, disk, modules, responses);
  }

  /** With the extension's arguments `(1, 3)`, at most four attempts are
      made. */
  lemma AtMostFourAttempts(cacheDir: Path, v: string, disk: set<Path>, modules: Modules, responses: int -> Response)
    ensures |RetryChain(cacheDir, v, 1, 3, disk, modules, responses).attempts| <= 4
    ensures !RetryChain(cacheDir, v, 1, 3, disk, modules, responses).calls[0].Rejects?
  {
    OutermostSettlement(cacheDir, v, 1, 3, disk, modules, responses);
  }

  /** Disks only grow along a chain. */
  lemma {:induction false} ChainDiskGrows(cacheDir: Path, v: string, retryNumber: int, maxRetries: int,
                                          disk: set<Path>, modules: Modules, responses: int -> Response)
    ensures var c := RetryChain(cacheDir, v, retryNumber, maxRetries, disk, modules, responses);
            disk <= c.disk && forall i :: 0 <= i < |c.attempts| ==> disk <= c.attempts[i].disk
    decreases if retryNumber <= maxRetries then maxRetries - retryNumber + 1 else 0
  {
    var a := LoadRemoteWasmVersion(cacheDir, v, disk, modules, responses(retryNumber));
    if a.result.LoadFailed? && retryNumber <= maxRetries {
      ChainDiskGrows(cacheDir, v, retryNumber + 1, maxRetries, a.disk, modules, responses);
    }
  }

  /** The only file a chain can add is the version's cache file. */
  lemma {:induction false} ChainDiskBounded(cacheDir: Path, v: string, retryNumber: int, maxRetries: int,
                                            disk: set<Path>, modules: Modules, responses: int -> Response)
    ensures RetryChain(cacheDir, v, retryNumber, maxRetries, disk, modules, responses).disk <= disk + {CachePath(cacheDir, v)}
    decreases if retryNumber <= maxRetries then maxRetries - retryNumber + 1 else 0
  {
    var a := LoadRemoteWasmVersion(cacheDir, v, disk, modules, responses(retryNumber));
    if a.result.LoadFailed? && retryNumber <= maxRetries {
      ChainDiskBounded(cacheDir, v, retryNumber + 1, maxRetries, a.disk, modules, responses);
    }
  }

  /** A version other than `latest` is downloaded at most once per chain:
      the first download, even a failed one, leaves the cache file behind,
      and every later attempt is served from it. When the file exists from
      the start, no attempt downloads. */
  lemma {:induction false} AtMostOneDownload(cacheDir: Path, v: string, retryNumber: int, maxRetries: int,
                                             disk: set<Path>, modules: Modules, responses: int -> Response)
    requires v != LatestVersion
    ensures var c := RetryChain(cacheDir, v, retryNumber, maxRetries, disk, modules, responses);
            && (forall i :: 0 < i < |c.attempts| ==> !c.attempts[i].Downloaded())
            && (CachePath(cacheDir, v) in disk ==> forall i :: 0 <= i < |c.attempts| ==> !c.attempts[i].Downloaded())
    decreases if retryNumber <= maxRetries then maxRetries - retryNumber + 1 else 0
  {
    var a := LoadRemoteWasmVersion(cacheDir, v, disk, modules, responses(retryNumber));
    var c := RetryChain(cacheDir, v, retryNumber, maxRetries, disk, modules, responses);
    RetryChainUnfold(cacheDir, v, retryNumber, maxRetries, disk, modules, responses);
    if a.result.LoadFailed? && retryNumber <= maxRetries {
      assert CachePath(cacheDir, v) in a.disk;
      var rest := RetryChain(cacheDir, v, retryNumber + 1, maxRetries, a.disk, modules, responses);
      AtMostOneDownload(cacheDir, v, retryNumber + 1, maxRetries, a.disk, modules, responses);
      assert c.attempts == [a] + rest.attempts;
      forall i | 0 < i < |c.attempts| ensures !c.attempts[i].Downloaded() {
        assert c.attempts[i] == rest.attempts[i - 1];
      }
    }
  }

  /** `latest` is downloaded on every attempt. */
  lemma {:induction false} LatestAlwaysDownloads(cacheDir: Path, retryNumber: int, maxRetries: int,
                                                 disk: set<Path>, modules: Modules, responses: int -> Response)
    ensures var c := RetryChain(cacheDir, LatestVersion, retryNumber, maxRetries, disk, modules, responses);
            forall i :: 0 <= i < |c.attempts| ==> c.attempts[i].Downloaded()
    decreases if retryNumber <= maxRetries then maxRetries - retryNumber + 1 else 0
  {
    var a := LoadRemoteWasmVersion(cacheDir, LatestVersion, disk, modules, responses(retryNumber));
    var c := RetryChain(cacheDir, LatestVersion, retryNumber, maxRetries, disk, modules, responses);
    RetryChainUnfold(cacheDir, LatestVersion, retryNumber, maxRetries, disk, modules, responses);
    if a.result.LoadFailed? && retryNumber <= maxRetries {
      var rest := RetryChain(cacheDir, LatestVersion, retryNumber + 1, maxRetries, a.disk, modules, responses);
      LatestAlwaysDownloads(cacheDir, retryNumber + 1, maxRetries, a.disk, modules, responses);
      assert c.attempts == [a] + rest.attempts;
      forall i | 0 < i < |c.attempts| ensures c.attempts[i].Downloaded() {
        assert c.attempts[i] == rest.attempts[i - 1];
      }
    }
  }

  /** The calls and attempts made so far, followed by the chain that
      starts at attempt `n` on disk `d`, are the whole chain. */
  predicate ChainRemains(cacheDir: Path, v: string, n: int, maxRetries: int, d: set<Path>, modules: Modules,
                         responses: int -> Response, calls: seq<Settlement>, attempts: seq<Attempt>, whole: Chain)
  {
    var c := RetryChain(cacheDir, v, n, maxRetries, d, modules, responses);
    calls + c.calls == whole.calls && attempts + c.attempts == whole.attempts && c.disk == whole.disk
  }

  /** A failed attempt with a retry allowed adds one pending call. */
  lemma ChainRemainsRetry(cacheDir: Path, v: string, n: int, maxRetries: int, d: set<Path>, modules: Modules,
                          responses: int -> Response, calls: seq<Settlement>, attempts: seq<Attempt>, whole: Chain)
    requires ChainRemains(cacheDir, v, n, maxRetries, d, modules, responses, calls, attempts, whole)
    requires LoadRemoteWasmVersion(cacheDir, v, d, modules, responses(n)).result.LoadFailed? && n <= maxRetries
    ensures var a := LoadRemoteWasmVersion(cacheDir, v, d, modules, responses(n));
            ChainRemains(cacheDir, v, n + 1, maxRetries, a.disk, modules, responses, calls + [Pending], attempts + [a], whole)
  {
    var a := LoadRemoteWasmVersion(cacheDir, v, d, modules, responses(n));
    RetryChainUnfold(cacheDir, v, n, maxRetries, d, modules, responses);
    var c := RetryChain(cacheDir, v, n, maxRetries, d, modules, responses);
    var rest := RetryChain(cacheDir, v, n + 1, maxRetries, a.disk, modules, responses);
    assert (calls + [Pending]) + rest.calls == calls + c.calls;
    assert (attempts + [a]) + rest.attempts == attempts + c.attempts;
  }

  /** An attempt that ends the chain completes it. */
  lemma ChainRemainsLast(cacheDir: Path, v: string, n: int, maxRetries: int, d: set<Path>, modules: Modules,
                         responses: int -> Response, calls: seq<Settlement>, attempts: seq<Attempt>, whole: Chain)
    requires ChainRemains(cacheDir, v, n, maxRetries, d, modules, responses, calls, attempts, whole)
    requires var a := LoadRemoteWasmVersion(cacheDir, v, d, modules, responses(n));
             a.result.Loaded? || n > maxRetries
    ensures var a := LoadRemoteWasmVersion(cacheDir, v, d, modules, responses(n));
            var last := if a.result.Loaded? then Resolves(a.result.backend) else Rejects(a.result.reason);
            Chain(a.disk, calls + [last], attempts + [a]) == whole
  {
    RetryChainUnfold(cacheDir, v, n, maxRetries, d, modules, responses);
  }

  /** The retry chain as an explicit loop with an attempt counter. */
  method RetryLoop(cacheDir: Path, v: string, retryNumber: int, maxRetries: int,
                   disk: set<Path>, modules: Modules, responses: int -> Response)
    returns (finalDisk: set<Path>, calls: seq<Settlement>, attempts: seq<Attempt>)
    ensures Chain(finalDisk, calls, attempts) == RetryChain(cacheDir, v, retryNumber, maxRetries, disk, modules, responses)
  {
    var n := retryNumber;
    var d := disk;
    calls, attempts := [], [];
    ghost var whole := RetryChain(cacheDir, v, retryNumber, maxRetries, disk, modules, responses);
    assert calls + whole.calls == whole.calls && attempts + whole.attempts == whole.attempts;
    while true
      invariant ChainRemains(cacheDir, v, n, maxRetries, d, modules, responses, calls, attempts, whole)
      decreases if n <= maxRetries then maxRetries - n + 1 else 0
    {
      var a := LoadRemoteWasmVersion(cacheDir, v, d, modules, responses(n));
      match a.result {
        case Loaded(b) =>
          ChainRemainsLast(cacheDir, v, n, maxRetries, d, modules, responses, calls, attempts, whole);
          calls, attempts, finalDisk := calls + [Resolves(b)], attempts + [a], a.disk;
          return;
        case LoadFailed(reason) =>
          if n <= maxRetries {
            ChainRemainsRetry(cacheDir, v, n, maxRetries, d, modules, responses, calls, attempts, whole);
            calls, attempts := calls + [Pending], attempts + [a];
            n, d := n + 1, a.disk;
          } else {
            ChainRemainsLast(cacheDir, v, n, maxRetries, d, modules, responses, calls, attempts, whole);
            calls, attempts, finalDisk := calls + [Rejects(reason)], attempts + [a], a.disk;
            return;
          }
      }
    }
  }
}

=== FILE: resolver.dfy ===
/**
  The backend resolver `SolcCompiler`: it records which of four kinds of
  compiler it loaded (`currentCompilerType`) and from what
  (`currentCompilerSetting`), skips re-initialisation when the requested
  settings match that record (`initialisedAlready`), and otherwise picks,
  in priority order, the project's `node_modules` installation, a local
  file, a remote release, or the bundled compiler (`intialiseCompiler`).
 */
module SolcResolver {
  import opened JsValues
  import opened Paths
  import opened Loader
  import opened RemoteFetch

  datatype CompilerType = LocalNode | Remote | LocalFile | Default

  /** The fields of a `SolcCompiler`. `enableNodeSetting` is `None` until the
      first initialisation that is not skipped. */
  datatype SolcState = SolcState(
    rootPath: Option<Path>,
    cacheDir: Path,
    localSolc: Option<Backend>,
    currentType: CompilerType,
    currentSetting: Option<string>,
    enableNodeSetting: Option<bool>)

  /** `new SolcCompiler(rootPath)` followed by `setSolcCache(cacheDir)`. */
  function NewSolcCompiler(rootPath: Option<Path>, cacheDir: Path): (s: SolcState)
    ensures s.localSolc.None? && s.currentType == Default
    ensures RecordConsistent(s)
  {
    SolcState(rootPath, cacheDir, None, Default, None, None)
  }

  /** Where a project installs solc with npm. */
  function NodeInstallation(root: Path): Path {
    root + ["node_modules", "solc", "soljson.js"]
  }

  predicate NodeInstalled(root: Path, disk: set<Path>) {
    NodeInstallation(root) in disk
  }

  /** The arguments `intialiseCompiler` passes to the retry chain. */
  const FirstRetry: int := 1
  const MaxRetries: int := 3

  const RemoteLoadError: string := "There was an error loading the remote version: "

  /** `initialisedAlready(l, r, e)`, branch by branch as the extension
      writes it. */
  function InitialisedAlready(s: SolcState, l: Option<string>, r: Option<string>, e: bool, disk: set<Path>): bool {
    if s.localSolc.None? then false
    else if s.enableNodeSetting != Some(e) then false
    else
      var installed := s.rootPath.Some? && e && NodeInstalled(s.rootPath.value, disk);
      if s.rootPath.Some? && e && s.currentType == LocalNode && installed then true
      else if s.currentType == LocalFile && l == s.currentSetting then true
      else if s.currentType == Remote && r == s.currentSetting then true
      else if s.currentType == Default && !installed && Blank(l) && Blank(r) then true
      else false
  }

  /** The kind a fresh initialisation picks, in priority order, or `None`
      when it rejects because the node compiler is enabled without a
      workspace root. */
  function SelectedKind(root: Option<Path>, l: Option<string>, r: Option<string>, e: bool, disk: set<Path>): Option<CompilerType> {
    if e && root.None? then None
    else if e && NodeInstalled(root.value, disk) then Some(LocalNode)
    else if Truthy(l) then Some(LocalFile)
    else if Truthy(r) then Some(Remote)
    else Some(Default)
  }

  /** The setting recorded for a kind: the path, the version, or `null`. */
  function RecordedSetting(k: CompilerType, l: Option<string>, r: Option<string>): Option<string> {
    match k
    case LocalFile => l
    case Remote => r
    case _ => None
  }

  /** The record a resolver keeps: a local file or a remote release is
      recorded with a non-empty setting, the other kinds with `null`. */
  predicate RecordConsistent(s: SolcState) {
    && (s.currentType == LocalFile || s.currentType == Remote ==> Truthy(s.currentSetting))
    && (s.currentType == LocalNode || s.currentType == Default ==> s.currentSetting == None)
  }

  /** The skips where the recorded kind is not the one a fresh
      initialisation would pick: a kind of lower priority than the node
      installation or a local file is kept although that source is now
      configured, and the bundled compiler is kept although a fresh
      initialisation would reject for the missing root. */
  predicate StaleSkip(s: SolcState, l: Option<string>, r: Option<string>, e: bool, disk: set<Path>) {
    var nodeFirst := e && (s.rootPath.None? || NodeInstalled(s.rootPath.value, disk));
    match s.currentType
    case LocalNode => false
    case LocalFile => nodeFirst
    case Remote => nodeFirst || Truthy(l)
    case Default => e && s.rootPath.None?
  }

  /** A skip keeps the backend a fresh initialisation would load, with the
      same recorded setting, exactly when it is not one of the stale
      skips. */
  lemma SkipAgreesWithSelection(s: SolcState, l: Option<string>, r: Option<string>, e: bool, disk: set<Path>)
    requires RecordConsistent(s)
    requires InitialisedAlready(s, l, r, e, disk)
    ensures SelectedKind(s.rootPath, l, r, e, disk) == Some(s.currentType) <==> !StaleSkip(s, l, r, e, disk)
    ensures !StaleSkip(s, l, r, e, disk) ==> RecordedSetting(s.currentType, l, r) == s.currentSetting
  {
  }

  /** A remote backend is kept after a local file is configured next to
      the same remote version, although a fresh initialisation would load
      the local file. */
  lemma RemoteSkipIgnoresLocalFile(root: Path, cacheDir: Path, b: Backend, disk: set<Path>)
    ensures var s := SolcState(Some(root), cacheDir, Some(b), Remote, Some("v"), Some(false));
            && RecordConsistent(s)
            && InitialisedAlready(s, Some("x"), Some("v"), false, disk)
            && SelectedKind(Some(root), Some("x"), Some("v"), false, disk) == Some(LocalFile)
  {
  }

  /** Nothing is reused before a backend is loaded, nor when the node flag
      changed; a local-file or remote backend is reused only for the very
      same path or version; the bundled one only when nothing else is asked
      for and no node installation is found. */
  lemma InitialisedAlreadyRequires(s: SolcState, l: Option<string>, r: Option<string>, e: bool, disk: set<Path>)
    requires InitialisedAlready(s, l, r, e, disk)
    ensures s.localSolc.Some? && s.enableNodeSetting == Some(e)
    ensures s.currentType == LocalFile ==> l == s.currentSetting
    ensures s.currentType == Remote ==> r == s.currentSetting
    ensures s.currentType == Default ==> Blank(l) && Blank(r) && !(s.rootPath.Some? && e && NodeInstalled(s.rootPath.value, disk))
    ensures s.currentType == LocalNode ==> e && s.rootPath.Some? && NodeInstalled(s.rootPath.value, disk)
  {
  }

  /** Why an initialisation rejects. */
  datatype InitError =
    | RootPathUnset           // `path.join` on an undefined root throws
    | ModuleError(reason: string)
    | RemoteError(message: string)

  /** How the promise of `intialiseCompiler` settles. */
  datatype Outcome = Resolved | Rejected(error: InitError) | NeverSettles

  /** The resolver afterwards, the disk afterwards (downloads add cache
      files) and the outcome. */
  datatype Init = Init(state: SolcState, disk: set<Path>, outcome: Outcome)

  /** `intialiseCompiler(l, r, e)`. */
  function IntialiseCompiler(s: SolcState, l: Option<string>, r: Option<string>, e: bool,
                             disk: set<Path>, modules: Modules, responses: int -> Response): (i: Init)
    // the skip
    ensures InitialisedAlready(s, l, r, e, disk) ==> i == Init(s, disk, Resolved)
    // otherwise the node flag is recorded first, whatever happens next
    ensures !InitialisedAlready(s, l, r, e, disk) ==> i.state.enableNodeSetting == Some(e)
    ensures i.state.rootPath == s.rootPath && i.state.cacheDir == s.cacheDir
    // a failed or unsettled initialisation keeps the loaded backend and its record
    ensures !i.outcome.Resolved? ==>
              i.state.localSolc == s.localSolc && i.state.currentType == s.currentType && i.state.currentSetting == s.currentSetting
    // a successful one has a backend
    ensures i.outcome.Resolved? ==> i.state.localSolc.Some?
    // the priority order of the four kinds
    ensures !InitialisedAlready(s, l, r, e, disk) && i.outcome.Resolved? ==>
              if e && s.rootPath.Some? && NodeInstalled(s.rootPath.value, disk) then
                i.state.currentType == LocalNode && i.state.currentSetting == None
              else if Truthy(l) then
                i.state.currentType == LocalFile && i.state.currentSetting == l
              else if Truthy(r) then
                i.state.currentType == Remote && i.state.currentSetting == r
              else
                i.state.currentType == Default && i.state.currentSetting == None
    // it loads the kind it selects, from the matching source
    ensures !InitialisedAlready(s, l, r, e, disk) && i.outcome.Resolved? ==>
              && SelectedKind(s.rootPath, l, r, e, disk) == Some(i.state.currentType)
              && i.state.currentSetting == RecordedSetting(i.state.currentType, l, r)
    ensures !InitialisedAlready(s, l, r, e, disk) && i.outcome.Resolved? && i.state.currentType == LocalNode ==>
              s.rootPath.Some? && i.state.localSolc == Some(Module(Render(NodeInstallation(s.rootPath.value))))
    ensures !InitialisedAlready(s, l, r, e, disk) && i.outcome.Resolved? && i.state.currentType == LocalFile ==>
              l.Some? && i.state.localSolc == Some(Module(l.value))
    ensures !InitialisedAlready(s, l, r, e, disk) && i.outcome.Resolved? && i.state.currentType == Remote ==>
              r.Some? && i.state.localSolc == Some(Module(Render(CachePath(s.cacheDir, r.value))))
    ensures !InitialisedAlready(s, l, r, e, disk) && i.outcome.Resolved? && i.state.currentType == Default ==>
              i.state.localSolc == Some(Bundled)
    ensures RecordConsistent(s) ==> RecordConsistent(i.state)
    // how each branch settles: a local module loads or rejects with the loader's reason, the bundled compiler always loads
    ensures !InitialisedAlready(s, l, r, e, disk) && SelectedKind(s.rootPath, l, r, e, disk) == Some(LocalNode) ==>
              var m := Require(modules, Render(NodeInstallation(s.rootPath.value)));
              i.outcome == if m.Loaded? then Resolved else Rejected(ModuleError(m.reason))
    ensures !InitialisedAlready(s, l, r, e, disk) && SelectedKind(s.rootPath, l, r, e, disk) == Some(LocalFile) ==>
              var m := Require(modules, l.value);
              i.outcome == if m.Loaded? then Resolved else Rejected(ModuleError(m.reason))
    ensures !InitialisedAlready(s, l, r, e, disk) && SelectedKind(s.rootPath, l, r, e, disk) == Some(Default) ==>
              i.outcome == Resolved
    ensures !InitialisedAlready(s, l, r, e, disk) && SelectedKind(s.rootPath, l, r, e, disk) == None ==>
              i.outcome == Rejected(RootPathUnset)
    // an undefined root fails only when the node compiler is enabled
    ensures i.outcome == Rejected(RootPathUnset) <==> !InitialisedAlready(s, l, r, e, disk) && e && s.rootPath.None?
    // only the remote branch touches the disk
    ensures i.disk != disk ==> !InitialisedAlready(s, l, r, e, disk) && !Truthy(l) && Truthy(r)
  {
    if InitialisedAlready(s, l, r, e, disk) then Init(s, disk, Resolved)
    else
      var s1 := s.(enableNodeSetting := Some(e));
      if e && s.rootPath.None? then Init(s1, disk, Rejected(RootPathUnset))
      else if e && NodeInstalled(s.rootPath.value, disk) then
        match Require(modules, Render(NodeInstallation(s.rootPath.value)))
        case LoadFailed(reason) => Init(s1, disk, Rejected(ModuleError(reason)))
        case Loaded(b) => Init(s1.(localSolc := Some(b), currentType := LocalNode, currentSetting := None), disk, Resolved)
      else if Truthy(l) then
        match Require(modules, l.value)
        case LoadFailed(reason) => Init(s1, disk, Rejected(ModuleError(reason)))
        case Loaded(b) => Init(s1.(localSolc := Some(b), currentType := LocalFile, currentSetting := l), disk, Resolved)
      else if Truthy(r) then
        var chain := RetryChain(s.cacheDir, r.value, FirstRetry, MaxRetries, disk, modules, responses);
        match chain.calls[0]
        case Resolves(b) =>
          RetryChainUnfold(s.cacheDir, r.value, FirstRetry, MaxRetries, disk, modules, responses);
          Init(s1.(currentType := Remote, currentSetting := r, localSolc := Some(b)), chain.disk, Resolved)
        case Rejects(reason) => Init(s1, chain.disk, Rejected(RemoteError(RemoteLoadError + r.value + "," + reason)))
        case Pending => Init(s1, chain.disk, NeverSettles)
      else
        Init(s1.(localSolc := Some(Bundled), currentType := Default, currentSetting := None), disk, Resolved)
  }

  /** Idempotence: once an initialisation has resolved, asking again with
      the same arguments is skipped, as long as the node installation is
      still present or still absent. */
  lemma InitialiseThenInitialisedAlready(s: SolcState, l: Option<string>, r: Option<string>, e: bool,
                                         disk: set<Path>, modules: Modules, responses: int -> Response, later: set<Path>)
    requires IntialiseCompiler(s, l, r, e, disk, modules, responses).outcome.Resolved?
    requires s.rootPath.Some? ==> (NodeInstalled(s.rootPath.value, later) <==> NodeInstalled(s.rootPath.value, disk))
    ensures InitialisedAlready(IntialiseCompiler(s, l, r, e, disk, modules, responses).state, l, r, e, later)
  {
    var i := IntialiseCompiler(s, l, r, e, disk, modules, responses);
  }

  /** A cache file is never the node installation. */
  lemma CacheIsNotNodeInstallation(cacheDir: Path, v: string, root: Path)
    ensures CachePath(cacheDir, v) != NodeInstallation(root)
  {
    var a, b := CachePath(cacheDir, v), NodeInstallation(root);
    assert a[|a| - 1][7] == '-' != '.' == b[|b| - 1][7];
  }

  /** Initialising does not change whether the node installation is
      present: downloads only add cache files. */
  lemma InitialiseKeepsNodeInstallation(s: SolcState, l: Option<string>, r: Option<string>, e: bool,
                                        disk: set<Path>, modules: Modules, responses: int -> Response, root: Path)
    ensures NodeInstalled(root, IntialiseCompiler(s, l, r, e, disk, modules, responses).disk) <==> NodeInstalled(root, disk)
  {
    var i := IntialiseCompiler(s, l, r, e, disk, modules, responses);
    if i.disk != disk {
      ChainDiskBounded(s.cacheDir, r.value, FirstRetry, MaxRetries, disk, modules, responses);
      ChainDiskGrows(s.cacheDir, r.value, FirstRetry, MaxRetries, disk, modules, responses);
      CacheIsNotNodeInstallation(s.cacheDir, r.value, root);
    }
  }

  /** A resolved initialisation is skipped when repeated on the disk it
      leaves behind. */
  lemma InitialiseIdempotent(s: SolcState, l: Option<string>, r: Option<string>, e: bool,
                             disk: set<Path>, modules: Modules, responses: int -> Response)
    requires IntialiseCompiler(s, l, r, e, disk, modules, responses).outcome.Resolved?
    ensures var i := IntialiseCompiler(s, l, r, e, disk, modules, responses);
            InitialisedAlready(i.state, l, r, e, i.disk)
  {
    var i := IntialiseCompiler(s, l, r, e, disk, modules, responses);
    if s.rootPath.Some? {
      InitialiseKeepsNodeInstallation(s, l, r, e, disk, modules, responses, s.rootPath.value);
    }
    InitialiseThenInitialisedAlready(s, l, r, e, disk, modules, responses, i.disk);
  }

  /** The remote branch resolves exactly when the first download-or-cache
      attempt loads; otherwise its promise never settles, so the
      "error loading the remote version" rejection is never produced. */
  lemma RemoteBranchSettlement(s: SolcState, l: Option<string>, r: string, e: bool,
                               disk: set<Path>, modules: Modules, responses: int -> Response)
    requires Blank(l)
    requires !InitialisedAlready(s, l, Some(r), e, disk)
    requires !(e && s.rootPath.None?) && !(e && NodeInstalled(s.rootPath.value, disk))
    requires r != ""
    ensures var i := IntialiseCompiler(s, l, Some(r), e, disk, modules, responses);
            var first := LoadRemoteWasmVersion(s.cacheDir, r, disk, modules, responses(FirstRetry));
            && (i.outcome.Resolved? <==> first.result.Loaded?)
            && (first.result.LoadFailed? ==> i.outcome == NeverSettles)
            && !i.outcome.Rejected?
  {
    OutermostSettlement(s.cacheDir, r, FirstRetry, MaxRetries, disk, modules, responses);
  }
}

=== FILE: writer.dfy ===
/**
  `writeCompilationOutputToBuildDirectory` as the sequence of synchronous
  calls it makes. Which calls are made depends only on the compiler
  output, the workspace root, the build directory and the filters
  (`Plan`); the file system only decides whether each call succeeds
  (`Run`). The first call that throws ends the writing, and the effects of
  the calls before it stay on disk.
 */
module BuildWriter {
  import opened JsValues
  import opened Paths
  import opened FileSystem
  import opened BuildOutput

  /** One step of the writer. */
  datatype Op =
    | MkDirIfMissing(path: Path)             // if (!fs.existsSync(p)) fs.mkdirSync(p)
    | MkDirsIfMissing(path: Path)            // if (!fs.existsSync(p)) fsex.mkdirsSync(p)
    | EnsureParent(path: Path)               // this.ensureDirectoryExistence(p)
    | RemoveIfPresent(path: Path)            // if (fs.existsSync(p)) fs.unlinkSync(p)
    | Write(path: Path, content: Artifact)   // fs.writeFileSync(p, content)
    | Record(path: Path)                     // compiledFiles.push(p)
    | AstOfMissingSource(source: Path)       // output.sources[source].ast with no such source

  /** Why writing stops: a failed `fs` call, or the `TypeError` of reading
      `ast` from an undefined `output.sources[source]`. */
  datatype Fault = Io(error: FsError) | AstOfUndefined(source: Path)

  /** The file system and the recorded descriptor paths after the steps, or
      the file system at the point where a step threw. */
  datatype Execution = Done(fs: Fs<Artifact>, files: seq<Path>) | Thrown(fs: Fs<Artifact>, fault: Fault)

  /** The paths whose entry a step may replace or remove. */
  function Touches(op: Op): set<Path> {
    match op
    case RemoveIfPresent(p) => {p}
    case Write(p, _) => {p}
    case _ => {}
  }

  /** The paths at which a step may create a file. */
  function Creates(op: Op): set<Path> {
    if op.Write? then {op.path} else {}
  }

  function FromStep(s: Step<Artifact>): (e: Execution)
    ensures e.fs == s.fs && (e.Done? <==> s.Ok?) && (e.Done? ==> e.files == [])
    ensures e.Thrown? ==> e.fault == Io(s.error)
  {
    match s
    case Ok(fs) => Done(fs, [])
    case Fail(fs, err) => Thrown(fs, Io(err))
  }

  /** One step. Only a write or a removal changes an existing entry; new
      entries are directories, or the file a write creates. */
  function Exec(fs: Fs<Artifact>, op: Op): (r: Execution)
    requires WellFormed(fs)
    ensures WellFormed(r.fs)
    ensures forall q :: q in fs && q !in Touches(op) ==> q in r.fs && r.fs[q] == fs[q]
    ensures forall q :: q in r.fs && q !in fs ==> r.fs[q].Dir? || q in Creates(op)
    ensures r.Done? && op.Write? ==> op.path in r.fs && r.fs[op.path] == File(op.content)
    ensures r.Done? && op.RemoveIfPresent? ==> op.path !in r.fs
    ensures r.Done? ==> r.files == (if op.Record? then [op.path] else [])
    ensures op.AstOfMissingSource? ==> r == Thrown(fs, AstOfUndefined(op.source))
    ensures r.Thrown? && r.fault.AstOfUndefined? ==> op.AstOfMissingSource?
    // when each call completes
    ensures op.MkDirIfMissing? ==> (r.Done? <==> op.path in fs || IsDir(fs, Dirname(op.path)))
    ensures op.MkDirsIfMissing? ==> (r.Done? <==> op.path in fs || IsDir(fs, Deepest(fs, op.path)))
    ensures op.EnsureParent? ==> (r.Done? <==> Dirname(op.path) in fs || IsDir(fs, Deepest(fs, Dirname(op.path))))
    ensures op.RemoveIfPresent? ==> (r.Done? <==> op.path !in fs || fs[op.path].File?)
    ensures op.Write? ==> (r.Done? <==> IsDir(fs, Dirname(op.path)) && !IsDir(fs, op.path))
    ensures op.Record? ==> r.Done?
    ensures r.Done? && op.Write? ==> r.fs == fs[op.path := File(op.content)]
    ensures r.Done? && op.RemoveIfPresent? ==> r.fs == fs - {op.path}
    ensures Ready(fs, op) ==> r.Done? && (op.Write? || op.RemoveIfPresent? || r.fs == fs)
  {
    match op
    case MkDirIfMissing(p) => if p in fs then Done(fs, []) else FromStep(MkDir(fs, p))
    case MkDirsIfMissing(p) => if p in fs then Done(fs, []) else FromStep(MkDirs(fs, p))
    case EnsureParent(p) => FromStep(EnsureDirectoryExistence(fs, p))
    case RemoveIfPresent(p) => FromStep(RemoveIfExists(fs, p))
    case Write(p, a) => FromStep(WriteFile(fs, p, a))
    case Record(p) => Done(fs, [p])
    case AstOfMissingSource(s) => Thrown(fs, AstOfUndefined(s))
  }

  /** A step that completes on `fs` without creating a directory: the
      directory it works in exists, and what it removes or writes is not a
      directory. */
  predicate Ready(fs: Fs<Artifact>, op: Op) {
    match op
    case MkDirIfMissing(d) => IsDir(fs, d)
    case MkDirsIfMissing(d) => IsDir(fs, d)
    case EnsureParent(p) => IsDir(fs, Dirname(p))
    case RemoveIfPresent(p) => IsDir(fs, Dirname(p)) && !IsDir(fs, p)
    case Write(p, _) => IsDir(fs, Dirname(p)) && !IsDir(fs, p)
    case Record(_) => true
    case AstOfMissingSource(_) => false
  }

  predicate AllReady(fs: Fs<Artifact>, ops: seq<Op>) {
    forall j :: 0 <= j < |ops| ==> Ready(fs, ops[j])
  }

  /** `files` recorded before the execution `e`. */
  function Prefixed(files: seq<Path>, e: Execution): (r: Execution)
    ensures r.fs == e.fs && (r.Done? <==> e.Done?)
    ensures r.Done? ==> r.files == files + e.files
    ensures r.Thrown? ==> r == e
  {
    match e
    case Done(fs, more) => Done(fs, files + more)
    case Thrown(_, _) => e
  }

  /** The steps in order, stopping at the first that throws. */
  function Run(fs: Fs<Artifact>, ops: seq<Op>): (r: Execution)
    requires WellFormed(fs)
    ensures WellFormed(r.fs)
    decreases |ops|
  {
    if ops == [] then Done(fs, [])
    else
      match Exec(fs, ops[0])
      case Thrown(fs1, e) => Thrown(fs1, e)
      case Done(fs1, files1) => Prefixed(files1, Run(fs1, ops[1..]))
  }

  /** Running `a + b` is running `a`, then, if it did not throw, `b`. */
  lemma {:induction false} RunAppend(fs: Fs<Artifact>, a: seq<Op>, b: seq<Op>)
    requires WellFormed(fs)
    ensures Run(fs, a).Thrown? ==> Run(fs, a + b) == Run(fs, a)
    ensures Run(fs, a).Done? ==> Run(fs, a + b) == Prefixed(Run(fs, a).files, Run(Run(fs, a).fs, b))
    decreases |a|
  {
    if a == [] {
      assert a + b == b;
      var r := Run(fs, b);
      assert r.Done? ==> [] + r.files == r.files;
    } else {
      assert (a + b)[0] == a[0] && (a + b)[1..] == a[1..] + b;
      var r1 := Exec(fs, a[0]);
      if r1.Done? {
        RunAppend(r1.fs, a[1..], b);
        var ra := Run(r1.fs, a[1..]);
        if ra.Done? {
          PrefixedTwice(r1.files, ra.files, Run(ra.fs, b));
        }
      }
    }
  }

  lemma PrefixedTwice(f1: seq<Path>, f2: seq<Path>, e: Execution)
    ensures Prefixed(f1, Prefixed(f2, e)) == Prefixed(f1 + f2, e)
  {
    if e.Done? {
      assert f1 + (f2 + e.files) == (f1 + f2) + e.files;
    }
  }

  /** No step touches `q`. */
  predicate Untouched(ops: seq<Op>, q: Path) {
    forall j :: 0 <= j < |ops| ==> q !in Touches(ops[j])
  }

  /** An entry no step touches keeps its value, whatever happens. */
  lemma {:induction false} RunKeeps(fs: Fs<Artifact>, ops: seq<Op>, q: Path)
    requires WellFormed(fs) && q in fs && Untouched(ops, q)
    ensures q in Run(fs, ops).fs && Run(fs, ops).fs[q] == fs[q]
    decreases |ops|
  {
    if ops != [] {
      var r := Exec(fs, ops[0]);
      assert q !in Touches(ops[0]);
      if r.Done? {
        assert Untouched(ops[1..], q) by {
          forall j | 0 <= j < |ops[1..]| ensures q !in Touches(ops[1..][j]) {
            assert ops[1..][j] == ops[j + 1];
          }
        }
        RunKeeps(r.fs, ops[1..], q);
      }
    }
  }

  /** Some step creates a file at `q`. */
  predicate SomeStepCreates(ops: seq<Op>, q: Path) {
    exists j :: 0 <= j < |ops| && q in Creates(ops[j])
  }

  /** A path that was absent or a directory and holds a file afterwards
      was written by some step. */
  lemma {:induction false} RunCreates(fs: Fs<Artifact>, ops: seq<Op>, q: Path)
    requires WellFormed(fs)
    requires q in Run(fs, ops).fs && (q !in fs || fs[q].Dir?)
    ensures Run(fs, ops).fs[q].Dir? || SomeStepCreates(ops, q)
    decreases |ops|
  {
    if ops != [] {
      var r := Exec(fs, ops[0]);
      if r.Done? {
        if q !in Creates(ops[0]) {
          RunCreates(r.fs, ops[1..], q);
          if SomeStepCreates(ops[1..], q) {
            var j :| 0 <= j < |ops[1..]| && q in Creates(ops[1..][j]);
            assert ops[1..][j] == ops[j + 1];
          }
        }
      }
    }
  }

  /** The last step touching `p`, if any. */
  function LastTouch(ops: seq<Op>, p: Path): (r: Option<Op>)
    ensures r.Some? ==> p in Touches(r.value)
    decreases |ops|
  {
    if ops == [] then None
    else if p in Touches(ops[|ops| - 1]) then Some(ops[|ops| - 1])
    else LastTouch(ops[..|ops| - 1], p)
  }

  /** The last touch of `p` is a step of `ops`, and no step touches `p`
      exactly when there is none. */
  lemma {:induction false} LastTouchIsAStep(ops: seq<Op>, p: Path)
    ensures LastTouch(ops, p).Some? ==> LastTouch(ops, p).value in ops
    ensures LastTouch(ops, p).None? <==> Untouched(ops, p)
    decreases |ops|
  {
    if ops != [] {
      var init := ops[..|ops| - 1];
      LastTouchIsAStep(init, p);
      assert forall j :: 0 <= j < |init| ==> init[j] == ops[j];
      if LastTouch(init, p).Some? {
        assert LastTouch(init, p).value in init;
      }
    }
  }

  lemma {:induction false} LastTouchAppend(a: seq<Op>, b: seq<Op>, p: Path)
    ensures LastTouch(a + b, p) == if LastTouch(b, p).Some? then LastTouch(b, p) else LastTouch(a, p)
    decreases |b|
  {
    if b == [] {
      assert a + b == a;
    } else {
      var ab := a + b;
      assert ab[|ab| - 1] == b[|b| - 1];
      assert ab[..|ab| - 1] == a + b[..|b| - 1];
      LastTouchAppend(a, b[..|b| - 1], p);
    }
  }

  /** After a successful run, a path whose last touch is a write holds what
      that write wrote. */
  lemma {:induction false} RunLastTouch(fs: Fs<Artifact>, ops: seq<Op>, p: Path, a: Artifact)
    requires WellFormed(fs)
    requires Run(fs, ops).Done? && LastTouch(ops, p) == Some(Write(p, a))
    ensures p in Run(fs, ops).fs && Run(fs, ops).fs[p] == File(a)
    decreases |ops|
  {
    var init, last := ops[..|ops| - 1], ops[|ops| - 1];
    assert ops == init + [last];
    RunAppend(fs, init, [last]);
    var ri := Run(fs, init);
    assert ri.Done?;
    var step := Exec(ri.fs, last);
    assert [last][1..] == [];
    assert Run(ri.fs, [last]).fs == step.fs && step.Done?;
    if p !in Touches(last) {
      RunLastTouch(fs, init, p, a);
    }
  }

  /** A run whose steps read the AST of a missing source throws. */
  lemma {:induction false} RunThrows(fs: Fs<Artifact>, ops: seq<Op>, j: nat)
    requires WellFormed(fs)
    requires j < |ops| && ops[j].AstOfMissingSource?
    ensures Run(fs, ops).Thrown?
    decreases |ops|
  {
    var r := Exec(fs, ops[0]);
    if j > 0 && r.Done? {
      assert ops[1..][j - 1] == ops[j];
      RunThrows(r.fs, ops[1..], j - 1);
    }
  }

  /** Only a step reading a missing AST throws that fault. */
  lemma {:induction false} RunAstFault(fs: Fs<Artifact>, ops: seq<Op>)
    requires WellFormed(fs)
    requires Run(fs, ops).Thrown? && Run(fs, ops).fault.AstOfUndefined?
    ensures !NoMissingAst(ops)
    decreases |ops|
  {
    var r := Exec(fs, ops[0]);
    if r.Done? {
      RunAstFault(r.fs, ops[1..]);
      var j :| 0 <= j < |ops[1..]| && ops[1..][j].AstOfMissingSource?;
      assert ops[j + 1] == ops[1..][j];
    } else {
      assert ops[0].AstOfMissingSource?;
    }
  }

  /** The paths the steps record, in order. */
  function Recorded(ops: seq<Op>): seq<Path>
    decreases |ops|
  {
    if ops == [] then [] else (if ops[0].Record? then [ops[0].path] else []) + Recorded(ops[1..])
  }

  /** A successful run returns exactly what its steps record. */
  lemma {:induction false} RunRecords(fs: Fs<Artifact>, ops: seq<Op>)
    requires WellFormed(fs)
    requires Run(fs, ops).Done?
    ensures Run(fs, ops).files == Recorded(ops)
    decreases |ops|
  {
    if ops != [] {
      RunRecords(Exec(fs, ops[0]).fs, ops[1..]);
    }
  }

  lemma {:induction false} RecordedAppend(a: seq<Op>, b: seq<Op>)
    ensures Recorded(a + b) == Recorded(a) + Recorded(b)
    decreases |a|
  {
    if a == [] {
      assert a + b == b;
    } else {
      assert (a + b)[0] == a[0] && (a + b)[1..] == a[1..] + b;
      RecordedAppend(a[1..], b);
    }
  }

  predicate EndsWith(s: string, suffix: string) {
    |suffix| <= |s| && s[|s| - |suffix|..] == suffix
  }

  lemma EndsWithAppend(x: string, suffix: string)
    ensures EndsWith(x + suffix, suffix)
  {
    assert (x + suffix)[|x|..] == suffix;
  }

  /** A path whose file name ends in `.json`. */
  predicate JsonNamed(p: Path) {
    p != [] && EndsWith(p[|p| - 1], ".json")
  }

  /** A path whose file name ends in `.abi`, `.bin` or `.json`. */
  predicate ArtifactNamed(p: Path) {
    p != [] && (EndsWith(p[|p| - 1], ".abi") || EndsWith(p[|p| - 1], ".bin") || EndsWith(p[|p| - 1], ".json"))
  }

  /** The file name of `p` is the descriptor's contract name plus `.json`. */
  predicate NamedAfter(p: Path, d: Descriptor) {
    p != [] && p[|p| - 1] == d.contractName + ".json"
  }

  /** The calls for one contract of `source`, in the order the extension
      makes them. */
  function ContractOps(dir: Path, out: CompilerOutput, source: Path, name: string, c: Contract): seq<Op> {
    var abi, bin, json := AbiPath(dir, name), BinPath(dir, name), JsonPath(dir, name);
    [MkDirsIfMissing(dir), RemoveIfPresent(abi), RemoveIfPresent(bin), RemoveIfPresent(json),
     Write(bin, Bytecode(c.bytecode)), Write(abi, AbiText(c.abi))]
    + (match AstOf(out, source)
       case None => [AstOfMissingSource(source)]
       case Some(ast) => [Write(json, DescriptorFile(Describe(name, c, source, ast))), Record(json)])
  }

  /** The calls for the contracts of one source, in iteration order. */
  function SourceOps(dir: Path, out: CompilerOutput, source: Path, cs: seq<(string, Contract)>): seq<Op>
    decreases |cs|
  {
    if cs == [] then []
    else ContractOps(dir, out, source, cs[0].0, cs[0].1) + SourceOps(dir, out, source, cs[1..])
  }

  /** The calls for every source that passes the filters, each into the
      directory mirroring it. */
  function EntriesOps(root: Path, bin: Path, out: CompilerOutput, f: Filters, es: seq<SourceEntry>): seq<Op>
    decreases |es|
  {
    if es == [] then []
    else
      (if Survives(f, es[0].source) then SourceOps(MirrorDir(root, bin, es[0].source), out, es[0].source, es[0].contracts) else [])
      + EntriesOps(root, bin, out, f, es[1..])
  }

  /** Where the raw compiler output goes: next to the mirrored single file
      (named after it without `.sol`), or at the top of the build
      directory. A present single-file path selects the first form even
      when it is empty. */
  function SnapshotPath(root: Path, bin: Path, f: Filters): Path {
    match f.singleContractFile
    case Some(single) => MirrorDir(root, bin, single) + [BasenameWithout(single, ".sol") + "-solc-output.json"]
    case None => bin + ["solc-output-compile-all.json"]
  }

  /** The snapshot calls; only the compile-all snapshot is unlinked first. */
  function SnapshotOps(root: Path, bin: Path, out: CompilerOutput, f: Filters): seq<Op> {
    var snap := SnapshotPath(root, bin, f);
    if f.singleContractFile.Some? then [EnsureParent(snap), Write(snap, RawOutput(out))]
    else [EnsureParent(snap), RemoveIfPresent(snap), Write(snap, RawOutput(out))]
  }

  /** Every call of `writeCompilationOutputToBuildDirectory`, in order. */
  function Plan(root: Path, buildDir: Path, out: CompilerOutput, f: Filters): seq<Op> {
    var bin := root + buildDir;
    [MkDirIfMissing(bin)] + SnapshotOps(root, bin, out, f) + EntriesOps(root, bin, out, f, ContractsOf(out))
  }

  /** `writeCompilationOutputToBuildDirectory(output, buildDir, sourceDir,
      excludePath, singleContractFilePath)` with the workspace at `root`. */
  function WriteCompilationOutput(fs: Fs<Artifact>, root: Path, buildDir: Path, out: CompilerOutput, f: Filters): (w: Execution)
    requires WellFormed(fs)
    ensures WellFormed(w.fs)
  {
    Run(fs, Plan(root, buildDir, out, f))
  }

  /** The descriptor path of each contract, in order. */
  function JsonPaths(dir: Path, cs: seq<(string, Contract)>): (ps: seq<Path>)
    ensures |ps| == |cs|
    decreases |cs|
  {
    if cs == [] then [] else [JsonPath(dir, cs[0].0)] + JsonPaths(dir, cs[1..])
  }

  /** The descriptor paths the extension reports: those of every contract
      of every source passing the filters, in iteration order. */
  function ExpectedFiles(root: Path, bin: Path, f: Filters, es: seq<SourceEntry>): seq<Path>
    decreases |es|
  {
    if es == [] then []
    else
      (if Survives(f, es[0].source) then JsonPaths(MirrorDir(root, bin, es[0].source), es[0].contracts) else [])
      + ExpectedFiles(root, bin, f, es[1..])
  }

  predicate NoMissingAst(ops: seq<Op>) {
    forall j :: 0 <= j < |ops| ==> !ops[j].AstOfMissingSource?
  }

  /** The last touch of every path is a write. */
  ghost predicate EndsWritten(ops: seq<Op>) {
    forall p :: LastTouch(ops, p).Some? ==> LastTouch(ops, p).value.Write?
  }

  /** Every `.json` file written is a descriptor named after its contract. */
  predicate DescriptorWrites(ops: seq<Op>) {
    forall j :: 0 <= j < |ops| && ops[j].Write? && JsonNamed(ops[j].path) ==>
      ops[j].content.DescriptorFile? && NamedAfter(ops[j].path, ops[j].content.descriptor)
  }

  /** Only artifact-named paths are touched, and of the `.json` ones only
      those in `expected`. */
  predicate TouchesArtifacts(ops: seq<Op>, expected: seq<Path>) {
    forall j, p :: 0 <= j < |ops| && p in Touches(ops[j]) ==> ArtifactNamed(p) && (JsonNamed(p) ==> p in expected)
  }

  /** What the entry calls have in common, with `expected` the descriptor
      paths they should report: every `.json` file written is a
      descriptor; every recorded path is touched; without a missing AST,
      every path ends written and exactly `expected` is recorded; only
      artifact-named paths are touched, and of the `.json` ones only
      `expected`. */
  ghost predicate Shaped(ops: seq<Op>, expected: seq<Path>) {
    && DescriptorWrites(ops)
    && (forall p :: p in Recorded(ops) ==> !Untouched(ops, p))
    && (NoMissingAst(ops) ==> EndsWritten(ops) && Recorded(ops) == expected)
    && TouchesArtifacts(ops, expected)
  }

  lemma ShapedAppend(a: seq<Op>, ea: seq<Path>, b: seq<Op>, eb: seq<Path>)
    requires Shaped(a, ea) && Shaped(b, eb)
    ensures Shaped(a + b, ea + eb)
  {
    var ab := a + b;
    RecordedAppend(a, b);
    forall p | p in Recorded(ab) ensures !Untouched(ab, p) {
      if p in Recorded(a) {
        var j :| 0 <= j < |a| && p in Touches(a[j]);
        assert ab[j] == a[j];
      } else {
        assert p in Recorded(b);
        var j :| 0 <= j < |b| && p in Touches(b[j]);
        assert ab[|a| + j] == b[j];
      }
    }
    if NoMissingAst(ab) {
      assert NoMissingAst(a) by {
        forall j | 0 <= j < |a| ensures !a[j].AstOfMissingSource? { assert ab[j] == a[j]; }
      }
      assert NoMissingAst(b) by {
        forall j | 0 <= j < |b| ensures !b[j].AstOfMissingSource? { assert ab[|a| + j] == b[j]; }
      }
      forall p | LastTouch(ab, p).Some? ensures LastTouch(ab, p).value.Write? {
        LastTouchAppend(a, b, p);
      }
    }
    forall j, p | 0 <= j < |ab| && p in Touches(ab[j])
      ensures ArtifactNamed(p) && (JsonNamed(p) ==> p in ea + eb)
    {
      if j < |a| { assert ab[j] == a[j]; } else { assert ab[j] == b[j - |a|]; }
    }
  }

  lemma EmptyShaped()
    ensures Shaped([], [])
  {
  }

  lemma ArtifactPathsNamed(dir: Path, name: string)
    ensures ArtifactNamed(AbiPath(dir, name)) && ArtifactNamed(BinPath(dir, name)) && ArtifactNamed(JsonPath(dir, name))
    ensures JsonNamed(JsonPath(dir, name)) && !JsonNamed(AbiPath(dir, name)) && !JsonNamed(BinPath(dir, name))
  {
    EndsWithAppend(name, ".abi");
    EndsWithAppend(name, ".bin");
    EndsWithAppend(name, ".json");
    var a, b := name + ".abi", name + ".bin";
    if |a| >= 5 {
      assert a[|a| - 5..][3] == 'b' != ".json"[3];
      assert b[|b| - 5..][3] == 'i' != ".json"[3];
    }
  }

  /** Steps none of which records anything record nothing. */
  lemma {:induction false} NothingRecorded(ops: seq<Op>)
    requires forall j :: 0 <= j < |ops| ==> !ops[j].Record?
    ensures Recorded(ops) == []
    decreases |ops|
  {
    if ops != [] {
      assert forall j :: 0 <= j < |ops[1..]| ==> ops[1..][j] == ops[j + 1];
      NothingRecorded(ops[1..]);
    }
  }

  /** The paths one contract's calls record: its descriptor, unless the
      AST read throws first. */
  lemma ContractRecorded(dir: Path, out: CompilerOutput, source: Path, name: string, c: Contract)
    ensures Recorded(ContractOps(dir, out, source, name, c)) == if AstOf(out, source).Some? then [JsonPath(dir, name)] else []
  {
    var ops := ContractOps(dir, out, source, name, c);
    var head, tail := ops[..6], ops[6..];
    assert ops == head + tail;
    RecordedAppend(head, tail);
    NothingRecorded(head);
    var json := JsonPath(dir, name);
    if AstOf(out, source).Some? {
      assert tail[1..] == [Record(json)];
      assert Recorded([Record(json)]) == [json] + Recorded([]);
    } else {
      assert tail[1..] == [];
    }
  }

  /** Every `.json` file one contract's calls write is its descriptor. */
  lemma ContractDescriptorWrites(dir: Path, out: CompilerOutput, source: Path, name: string, c: Contract)
    ensures DescriptorWrites(ContractOps(dir, out, source, name, c))
  {
    ArtifactPathsNamed(dir, name);
  }

  /** One contract's calls touch only its three artifact paths. */
  lemma ContractTouches(dir: Path, out: CompilerOutput, source: Path, name: string, c: Contract)
    ensures forall j, p :: 0 <= j < |ContractOps(dir, out, source, name, c)| && p in Touches(ContractOps(dir, out, source, name, c)[j]) ==>
              p == AbiPath(dir, name) || p == BinPath(dir, name) || p == JsonPath(dir, name)
  {
  }

  /** Of the paths one contract's calls touch, the `.json` one is its
      descriptor path. */
  lemma ContractTouchesNamed(dir: Path, out: CompilerOutput, source: Path, name: string, c: Contract)
    ensures var ops := ContractOps(dir, out, source, name, c);
            TouchesArtifacts(ops, [JsonPath(dir, name)])
  {
    ArtifactPathsNamed(dir, name);
    ContractTouches(dir, out, source, name, c);
  }

  /** With the AST present, every path one contract's calls touch ends
      written. */
  lemma ContractEndsWritten(dir: Path, out: CompilerOutput, source: Path, name: string, c: Contract)
    requires AstOf(out, source).Some?
    ensures EndsWritten(ContractOps(dir, out, source, name, c))
  {
    var ops := ContractOps(dir, out, source, name, c);
    forall p | LastTouch(ops, p).Some? ensures LastTouch(ops, p).value.Write? {
      ContractLastTouch(dir, out, source, name, c, p);
    }
  }

  /** One contract's calls: they touch only its three artifact paths, and
      they read the AST of a missing source exactly when the source has no
      entry in `output.sources`. */
  lemma ContractShaped(dir: Path, out: CompilerOutput, source: Path, name: string, c: Contract)
    ensures Shaped(ContractOps(dir, out, source, name, c), [JsonPath(dir, name)])
    ensures NoMissingAst(ContractOps(dir, out, source, name, c)) <==> AstOf(out, source).Some?
  {
    var ops := ContractOps(dir, out, source, name, c);
    ContractDescriptorWrites(dir, out, source, name, c);
    ContractTouchesNamed(dir, out, source, name, c);
    ContractRecordsTouched(dir, out, source, name, c);
    ContractCompletes(dir, out, source, name, c);
  }

  /** The path one contract's calls record is one they touch. */
  lemma ContractRecordsTouched(dir: Path, out: CompilerOutput, source: Path, name: string, c: Contract)
    ensures var ops := ContractOps(dir, out, source, name, c);
            forall p :: p in Recorded(ops) ==> !Untouched(ops, p)
  {
    var ops := ContractOps(dir, out, source, name, c);
    ContractRecorded(dir, out, source, name, c);
    assert JsonPath(dir, name) in Touches(ops[3]);
  }

  /** One contract's calls read the AST of a missing source exactly when
      the source has no AST entry; otherwise every touched path ends
      written and the descriptor is recorded. */
  lemma ContractCompletes(dir: Path, out: CompilerOutput, source: Path, name: string, c: Contract)
    ensures var ops := ContractOps(dir, out, source, name, c);
            && (NoMissingAst(ops) <==> AstOf(out, source).Some?)
            && (NoMissingAst(ops) ==> EndsWritten(ops) && Recorded(ops) == [JsonPath(dir, name)])
  {
    var ops := ContractOps(dir, out, source, name, c);
    ContractRecorded(dir, out, source, name, c);
    if AstOf(out, source).Some? {
      assert NoMissingAst(ops) by {
        assert ops == ops[..6] + ops[6..];
      }
      ContractEndsWritten(dir, out, source, name, c);
    } else {
      assert ops[6].AstOfMissingSource?;
    }
  }

  /** With the AST present, the last touch of each artifact path of a
      contract is its write, and nothing else is touched. */
  lemma ContractLastTouch(dir: Path, out: CompilerOutput, source: Path, name: string, c: Contract, p: Path)
    requires AstOf(out, source).Some?
    ensures LastTouch(ContractOps(dir, out, source, name, c), p).Some? ==>
              LastTouch(ContractOps(dir, out, source, name, c), p).value.Write?
  {
    var ops := ContractOps(dir, out, source, name, c);
    var abi, bin, json := AbiPath(dir, name), BinPath(dir, name), JsonPath(dir, name);
    ArtifactPathsDistinct(dir, name, dir, name);
    var o7, o6, o5 := ops[..7], ops[..6], ops[..5];
    assert o7[6] == ops[6] && o7[..6] == o6 && o6[5] == ops[5] && o6[..5] == o5 && o5[4] == ops[4];
    assert LastTouch(ops, p) == LastTouch(o7, p);
    if p == json {
      assert LastTouch(o7, p) == Some(ops[6]);
    } else if p == abi {
      assert LastTouch(o7, p) == LastTouch(o6, p) == Some(ops[5]);
    } else if p == bin {
      assert LastTouch(o6, p) == LastTouch(o5, p) == Some(ops[4]);
    } else {
      LastTouchIsAStep(ops, p);
    }
  }

  lemma NoMissingAstAppend(a: seq<Op>, b: seq<Op>)
    ensures NoMissingAst(a + b) <==> NoMissingAst(a) && NoMissingAst(b)
  {
    if NoMissingAst(a) && NoMissingAst(b) {
      forall j | 0 <= j < |a + b| ensures !(a + b)[j].AstOfMissingSource? {
        if j < |a| { assert (a + b)[j] == a[j]; } else { assert (a + b)[j] == b[j - |a|]; }
      }
    }
    if NoMissingAst(a + b) {
      forall j | 0 <= j < |a| ensures !a[j].AstOfMissingSource? { assert (a + b)[j] == a[j]; }
      forall j | 0 <= j < |b| ensures !b[j].AstOfMissingSource? { assert (a + b)[|a| + j] == b[j]; }
    }
  }

  /** The calls for one source report its contracts' descriptors; they read
      the source's AST once per contract, so a missing one throws unless
      the source has no contracts. */
  lemma {:induction false} SourceShaped(dir: Path, out: CompilerOutput, source: Path, cs: seq<(string, Contract)>)
    ensures Shaped(SourceOps(dir, out, source, cs), JsonPaths(dir, cs))
    ensures NoMissingAst(SourceOps(dir, out, source, cs)) <==> cs == [] || AstOf(out, source).Some?
    decreases |cs|
  {
    if cs == [] {
      EmptyShaped();
    } else {
      var head := ContractOps(dir, out, source, cs[0].0, cs[0].1);
      var rest := SourceOps(dir, out, source, cs[1..]);
      ContractShaped(dir, out, source, cs[0].0, cs[0].1);
      SourceShaped(dir, out, source, cs[1..]);
      ShapedAppend(head, [JsonPath(dir, cs[0].0)], rest, JsonPaths(dir, cs[1..]));
      NoMissingAstAppend(head, rest);
    }
  }

  /** Every source that passes the filters and has contracts has an AST
      entry in the output. */
  predicate AstsPresent(out: CompilerOutput, f: Filters, es: seq<SourceEntry>) {
    forall i :: 0 <= i < |es| && Survives(f, es[i].source) && es[i].contracts != [] ==> AstOf(out, es[i].source).Some?
  }

  lemma {:induction false} EntriesShaped(root: Path, bin: Path, out: CompilerOutput, f: Filters, es: seq<SourceEntry>)
    ensures Shaped(EntriesOps(root, bin, out, f, es), ExpectedFiles(root, bin, f, es))
    ensures NoMissingAst(EntriesOps(root, bin, out, f, es)) <==> AstsPresent(out, f, es)
    decreases |es|
  {
    if es == [] {
      EmptyShaped();
    } else {
      var e := es[0];
      var head := if Survives(f, e.source) then SourceOps(MirrorDir(root, bin, e.source), out, e.source, e.contracts) else [];
      var eh := if Survives(f, e.source) then JsonPaths(MirrorDir(root, bin, e.source), e.contracts) else [];
      var rest := EntriesOps(root, bin, out, f, es[1..]);
      if Survives(f, e.source) {
        SourceShaped(MirrorDir(root, bin, e.source), out, e.source, e.contracts);
      } else {
        EmptyShaped();
      }
      EntriesShaped(root, bin, out, f, es[1..]);
      ShapedAppend(head, eh, rest, ExpectedFiles(root, bin, f, es[1..]));
      NoMissingAstAppend(head, rest);
      assert AstsPresent(out, f, es) <==>
             (Survives(f, e.source) && e.contracts != [] ==> AstOf(out, e.source).Some?) && AstsPresent(out, f, es[1..]) by {
        assert forall i :: 0 <= i < |es[1..]| ==> es[1..][i] == es[i + 1];
      }
    }
  }

  lemma UntouchedAppend(a: seq<Op>, b: seq<Op>, q: Path)
    requires Untouched(a, q) && Untouched(b, q)
    ensures Untouched(a + b, q)
  {
    forall j | 0 <= j < |a + b| ensures q !in Touches((a + b)[j]) {
      if j < |a| { assert (a + b)[j] == a[j]; } else { assert (a + b)[j] == b[j - |a|]; }
    }
  }

  lemma SnapshotJsonNamed(root: Path, bin: Path, f: Filters)
    ensures JsonNamed(SnapshotPath(root, bin, f))
  {
    var snap := SnapshotPath(root, bin, f);
    if f.singleContractFile.Some? {
      var x := BasenameWithout(f.singleContractFile.value, ".sol") + "-solc-output";
      assert snap[|snap| - 1] == x + ".json";
      EndsWithAppend(x, ".json");
    } else {
      assert snap[|snap| - 1] == "solc-output-compile-all" + ".json";
      EndsWithAppend("solc-output-compile-all", ".json");
    }
  }

  /** The steps before the contract loop touch only the snapshot, record
      nothing and never read an AST; the last of them writes the
      snapshot. */
  lemma PreludeShape(root: Path, bin: Path, out: CompilerOutput, f: Filters)
    ensures var pre := [MkDirIfMissing(bin)] + SnapshotOps(root, bin, out, f);
            var snap := SnapshotPath(root, bin, f);
            && Recorded(pre) == []
            && NoMissingAst(pre)
            && (forall q :: q != snap ==> Untouched(pre, q))
            && LastTouch(pre, snap) == Some(Write(snap, RawOutput(out)))
  {
    var pre := [MkDirIfMissing(bin)] + SnapshotOps(root, bin, out, f);
    NothingRecorded(pre);
  }

  /** A successful write reports exactly the descriptor paths of the
      contracts of the sources that pass the filters, in iteration order;
      a passing source with contracts but no AST entry makes it throw, and
      that fault comes from nowhere else. */
  lemma WriteReportsExpected(fs: Fs<Artifact>, root: Path, buildDir: Path, out: CompilerOutput, f: Filters)
    requires WellFormed(fs)
    ensures var w := WriteCompilationOutput(fs, root, buildDir, out, f);
            w.Done? ==> w.files == ExpectedFiles(root, root + buildDir, f, ContractsOf(out))
    ensures !AstsPresent(out, f, ContractsOf(out)) ==> WriteCompilationOutput(fs, root, buildDir, out, f).Thrown?
    ensures var w := WriteCompilationOutput(fs, root, buildDir, out, f);
            w.Thrown? && w.fault.AstOfUndefined? ==> !AstsPresent(out, f, ContractsOf(out))
  {
    var bin := root + buildDir;
    var pre := [MkDirIfMissing(bin)] + SnapshotOps(root, bin, out, f);
    var ents := EntriesOps(root, bin, out, f, ContractsOf(out));
    var ops := Plan(root, buildDir, out, f);
    assert ops == pre + ents;
    var w := Run(fs, ops);
    PreludeShape(root, bin, out, f);
    EntriesShaped(root, bin, out, f, ContractsOf(out));
    NoMissingAstAppend(pre, ents);
    if !NoMissingAst(ops) {
      var j :| 0 <= j < |ops| && ops[j].AstOfMissingSource?;
      RunThrows(fs, ops, j);
    }
    if w.Done? {
      RunRecords(fs, ops);
      RecordedAppend(pre, ents);
    }
    if w.Thrown? && w.fault.AstOfUndefined? {
      RunAstFault(fs, ops);
    }
  }

  /** In shaped steps without a missing AST, the last step touching an
      expected `.json` path writes a descriptor named after it. */
  lemma ShapedEndsDescribed(ops: seq<Op>, expected: seq<Path>, p: Path)
    requires Shaped(ops, expected) && NoMissingAst(ops)
    requires p in expected && JsonNamed(p)
    ensures var t := LastTouch(ops, p);
            && t.Some? && t.value.Write? && t.value.path == p && t.value.content.DescriptorFile?
            && NamedAfter(p, t.value.content.descriptor)
  {
    LastTouchIsAStep(ops, p);
    var op := LastTouch(ops, p).value;
    var k :| 0 <= k < |ops| && ops[k] == op;
  }

  lemma {:induction false} JsonPathsNamed(dir: Path, cs: seq<(string, Contract)>)
    ensures forall p :: p in JsonPaths(dir, cs) ==> JsonNamed(p)
    decreases |cs|
  {
    if cs != [] {
      ArtifactPathsNamed(dir, cs[0].0);
      JsonPathsNamed(dir, cs[1..]);
    }
  }

  /** Every reported path names a `.json` file. */
  lemma {:induction false} ExpectedJsonNamed(root: Path, bin: Path, f: Filters, es: seq<SourceEntry>)
    ensures forall p :: p in ExpectedFiles(root, bin, f, es) ==> JsonNamed(p)
    decreases |es|
  {
    if es != [] {
      JsonPathsNamed(MirrorDir(root, bin, es[0].source), es[0].contracts);
      ExpectedJsonNamed(root, bin, f, es[1..]);
    }
  }

  /** After a successful write, every reported path holds a descriptor
      named after it: the descriptor of a contract of a source that passes
      the filters, whose mirrored `.json` path it is. */
  lemma ReportedFilesHoldDescriptors(fs: Fs<Artifact>, root: Path, buildDir: Path, out: CompilerOutput, f: Filters, p: Path)
    requires WellFormed(fs)
    requires WriteCompilationOutput(fs, root, buildDir, out, f).Done?
    requires p in WriteCompilationOutput(fs, root, buildDir, out, f).files
    ensures var w := WriteCompilationOutput(fs, root, buildDir, out, f);
            && p in w.fs && w.fs[p].File? && w.fs[p].content.DescriptorFile?
            && NamedAfter(p, w.fs[p].content.descriptor)
            && exists i, k :: 0 <= i < |ContractsOf(out)| &&
                 DescribesContract(root, root + buildDir, out, f, ContractsOf(out)[i], k, p, w.fs[p].content.descriptor)
  {
    var bin := root + buildDir;
    var pre := [MkDirIfMissing(bin)] + SnapshotOps(root, bin, out, f);
    var ents := EntriesOps(root, bin, out, f, ContractsOf(out));
    var ops := Plan(root, buildDir, out, f);
    assert ops == pre + ents;
    WriteReportsExpected(fs, root, buildDir, out, f);
    EntriesShaped(root, bin, out, f, ContractsOf(out));
    ExpectedJsonNamed(root, bin, f, ContractsOf(out));
    ShapedEndsDescribed(ents, ExpectedFiles(root, bin, f, ContractsOf(out)), p);
    LastTouchAppend(pre, ents, p);
    var op := LastTouch(ents, p).value;
    RunLastTouch(fs, ops, p, op.content);
    LastTouchIsAStep(ents, p);
    EntriesWritesFrom(root, bin, out, f, ContractsOf(out));
    var j :| 0 <= j < |ents| && ents[j] == op;
    EntriesDescriptorGenuine(root, bin, out, f, ContractsOf(out), p, op.content.descriptor);
  }

  /** After a successful write the snapshot holds the raw output, unless a
      contract's descriptor took its path. */
  lemma SnapshotHoldsOutput(fs: Fs<Artifact>, root: Path, buildDir: Path, out: CompilerOutput, f: Filters)
    requires WellFormed(fs)
    requires WriteCompilationOutput(fs, root, buildDir, out, f).Done?
    requires SnapshotPath(root, root + buildDir, f) !in ExpectedFiles(root, root + buildDir, f, ContractsOf(out))
    ensures var w := WriteCompilationOutput(fs, root, buildDir, out, f);
            var snap := SnapshotPath(root, root + buildDir, f);
            snap in w.fs && w.fs[snap] == File(RawOutput(out))
  {
    var bin := root + buildDir;
    var snap := SnapshotPath(root, bin, f);
    var pre := [MkDirIfMissing(bin)] + SnapshotOps(root, bin, out, f);
    var ents := EntriesOps(root, bin, out, f, ContractsOf(out));
    var ops := Plan(root, buildDir, out, f);
    assert ops == pre + ents;
    PreludeShape(root, bin, out, f);
    EntriesShaped(root, bin, out, f, ContractsOf(out));
    SnapshotJsonNamed(root, bin, f);
    LastTouchIsAStep(ents, snap);
    LastTouchAppend(pre, ents, snap);
    RunLastTouch(fs, ops, snap, RawOutput(out));
  }

  /** A path no step touches keeps its entry, and if it appears it is a
      directory. */
  lemma UntouchedFrame(fs: Fs<Artifact>, ops: seq<Op>, q: Path)
    requires WellFormed(fs) && Untouched(ops, q)
    ensures q in fs ==> q in Run(fs, ops).fs && Run(fs, ops).fs[q] == fs[q]
    ensures q in Run(fs, ops).fs && q !in fs ==> Run(fs, ops).fs[q].Dir?
  {
    if q in fs {
      RunKeeps(fs, ops, q);
    }
    if q in Run(fs, ops).fs && q !in fs {
      RunCreates(fs, ops, q);
    }
  }

  lemma ShapedTouchesArtifacts(ops: seq<Op>, expected: seq<Path>, q: Path)
    requires Shaped(ops, expected) && !ArtifactNamed(q)
    ensures Untouched(ops, q)
  {
  }

  /** The write touches only the snapshot and `.abi`/`.bin`/`.json` paths. */
  lemma PlanTouches(root: Path, buildDir: Path, out: CompilerOutput, f: Filters, q: Path)
    requires q != SnapshotPath(root, root + buildDir, f) && !ArtifactNamed(q)
    ensures Untouched(Plan(root, buildDir, out, f), q)
  {
    var bin := root + buildDir;
    var pre := [MkDirIfMissing(bin)] + SnapshotOps(root, bin, out, f);
    var ents := EntriesOps(root, bin, out, f, ContractsOf(out));
    assert Plan(root, buildDir, out, f) == pre + ents;
    PreludeShape(root, bin, out, f);
    EntriesShaped(root, bin, out, f, ContractsOf(out));
    ShapedTouchesArtifacts(ents, ExpectedFiles(root, bin, f, ContractsOf(out)), q);
    UntouchedAppend(pre, ents, q);
  }

  /** Whatever happens, the write changes no entry other than the snapshot
      and `.abi`/`.bin`/`.json` files, and everything else it adds is a
      directory. */
  lemma WriteTouchesOnlyArtifacts(fs: Fs<Artifact>, root: Path, buildDir: Path, out: CompilerOutput, f: Filters, q: Path)
    requires WellFormed(fs)
    requires q != SnapshotPath(root, root + buildDir, f) && !ArtifactNamed(q)
    ensures var w := WriteCompilationOutput(fs, root, buildDir, out, f);
            && (q in fs ==> q in w.fs && w.fs[q] == fs[q])
            && (q in w.fs && q !in fs ==> w.fs[q].Dir?)
  {
    PlanTouches(root, buildDir, out, f, q);
    UntouchedFrame(fs, Plan(root, buildDir, out, f), q);
  }

  /** The first step touching `p`, if any. */
  function FirstTouch(ops: seq<Op>, p: Path): (r: Option<Op>)
    ensures r.Some? ==> p in Touches(r.value) && r.value in ops
    ensures r.None? ==> Untouched(ops, p)
    decreases |ops|
  {
    if ops == [] then None
    else if p in Touches(ops[0]) then Some(ops[0])
    else
      var r := FirstTouch(ops[1..], p);
      assert forall j :: 0 < j < |ops| ==> ops[j] == ops[1..][j - 1];
      r
  }

  /** One contract's calls remove each of its three artifact paths before
      anything else touches it, so nothing of an earlier `.abi`, `.bin` or
      `.json` at those paths is kept. */
  lemma ContractRemovesFirst(dir: Path, out: CompilerOutput, source: Path, name: string, c: Contract)
    ensures var ops := ContractOps(dir, out, source, name, c);
            && FirstTouch(ops, AbiPath(dir, name)) == Some(RemoveIfPresent(AbiPath(dir, name)))
            && FirstTouch(ops, BinPath(dir, name)) == Some(RemoveIfPresent(BinPath(dir, name)))
            && FirstTouch(ops, JsonPath(dir, name)) == Some(RemoveIfPresent(JsonPath(dir, name)))
  {
    var ops := ContractOps(dir, out, source, name, c);
    var abi, bin, json := AbiPath(dir, name), BinPath(dir, name), JsonPath(dir, name);
    ArtifactPathsDistinct(dir, name, dir, name);
    var o1, o2, o3 := ops[1..], ops[2..], ops[3..];
    assert o1[0] == ops[1] && o1[1..] == o2 && o2[0] == ops[2] && o2[1..] == o3 && o3[0] == ops[3];
    assert FirstTouch(ops, abi) == FirstTouch(o1, abi);
    assert FirstTouch(ops, bin) == FirstTouch(o1, bin) == FirstTouch(o2, bin);
    assert FirstTouch(ops, json) == FirstTouch(o1, json) == FirstTouch(o2, json) == FirstTouch(o3, json);
  }

  /** With the AST present, the last call touching each artifact path of a
      contract writes it: the bytecode object to `.bin`, the ABI to `.abi`
      and the descriptor to `.json`. */
  lemma ContractFinalWrites(dir: Path, out: CompilerOutput, source: Path, name: string, c: Contract)
    requires AstOf(out, source).Some?
    ensures var ops := ContractOps(dir, out, source, name, c);
            && LastTouch(ops, BinPath(dir, name)) == Some(Write(BinPath(dir, name), Bytecode(c.bytecode)))
            && LastTouch(ops, AbiPath(dir, name)) == Some(Write(AbiPath(dir, name), AbiText(c.abi)))
            && LastTouch(ops, JsonPath(dir, name)) ==
                 Some(Write(JsonPath(dir, name), DescriptorFile(Describe(name, c, source, AstOf(out, source).value))))
  {
    var ops := ContractOps(dir, out, source, name, c);
    var abi, bin, json := AbiPath(dir, name), BinPath(dir, name), JsonPath(dir, name);
    ArtifactPathsDistinct(dir, name, dir, name);
    var o7, o6, o5 := ops[..7], ops[..6], ops[..5];
    assert o7[6] == ops[6] && o7[..6] == o6 && o6[5] == ops[5] && o6[..5] == o5 && o5[4] == ops[4];
    assert LastTouch(ops, json) == LastTouch(o7, json) == Some(ops[6]);
    assert LastTouch(ops, abi) == LastTouch(o7, abi) == LastTouch(o6, abi) == Some(ops[5]);
    assert LastTouch(ops, bin) == LastTouch(o7, bin) == LastTouch(o6, bin) == LastTouch(o5, bin) == Some(ops[4]);
  }

  /** When one contract's calls complete, its `.bin` holds the bytecode
      object, its `.abi` the ABI and its `.json` the descriptor. */
  lemma ContractWritesContents(fs: Fs<Artifact>, dir: Path, out: CompilerOutput, source: Path, name: string, c: Contract)
    requires WellFormed(fs) && AstOf(out, source).Some?
    requires Run(fs, ContractOps(dir, out, source, name, c)).Done?
    ensures var after := Run(fs, ContractOps(dir, out, source, name, c)).fs;
            && BinPath(dir, name) in after && after[BinPath(dir, name)] == File(Bytecode(c.bytecode))
            && AbiPath(dir, name) in after && after[AbiPath(dir, name)] == File(AbiText(c.abi))
            && JsonPath(dir, name) in after
            && after[JsonPath(dir, name)] == File(DescriptorFile(Describe(name, c, source, AstOf(out, source).value)))
  {
    var ops := ContractOps(dir, out, source, name, c);
    ContractFinalWrites(dir, out, source, name, c);
    RunLastTouch(fs, ops, BinPath(dir, name), Bytecode(c.bytecode));
    RunLastTouch(fs, ops, AbiPath(dir, name), AbiText(c.abi));
    RunLastTouch(fs, ops, JsonPath(dir, name), DescriptorFile(Describe(name, c, source, AstOf(out, source).value)));
  }

  /** After a successful run whose last step removes `p`, `p` is absent. */
  lemma RunEndsRemoving(fs: Fs<Artifact>, ops: seq<Op>, p: Path)
    requires WellFormed(fs)
    requires |ops| > 0 && ops[|ops| - 1] == RemoveIfPresent(p) && Run(fs, ops).Done?
    ensures p !in Run(fs, ops).fs
  {
    var init, last := ops[..|ops| - 1], ops[|ops| - 1];
    assert ops == init + [last];
    RunAppend(fs, init, [last]);
    assert [last][1..] == [];
  }

  /** Writes to other paths leave an absent `p` absent. */
  lemma {:induction false} RunWritesElsewhere(fs: Fs<Artifact>, ops: seq<Op>, p: Path)
    requires WellFormed(fs) && p !in fs
    requires forall j :: 0 <= j < |ops| ==> ops[j].Write? && ops[j].path != p
    ensures p !in Run(fs, ops).fs
    decreases |ops|
  {
    if ops != [] {
      var r := Exec(fs, ops[0]);
      assert r.Done? ==> r.fs == fs[ops[0].path := File(ops[0].content)];
      if r.Done? {
        assert forall j :: 0 <= j < |ops[1..]| ==> ops[1..][j] == ops[j + 1];
        RunWritesElsewhere(r.fs, ops[1..], p);
      }
    }
  }

  /** A run that throws the missing-AST fault contains a missing-AST read. */
  lemma RunAstFaultFrom(fs: Fs<Artifact>, ops: seq<Op>)
    requires WellFormed(fs)
    ensures Run(fs, ops).Thrown? && Run(fs, ops).fault.AstOfUndefined? ==> !NoMissingAst(ops)
  {
    if Run(fs, ops).Thrown? && Run(fs, ops).fault.AstOfUndefined? {
      RunAstFault(fs, ops);
    }
  }

  /** The removals and the two writes that open one contract's calls. */
  function Opening(dir: Path, name: string, c: Contract): seq<Op> {
    Removals(dir, name) + [Write(BinPath(dir, name), Bytecode(c.bytecode)), Write(AbiPath(dir, name), AbiText(c.abi))]
  }

  function Removals(dir: Path, name: string): seq<Op> {
    [MkDirsIfMissing(dir), RemoveIfPresent(AbiPath(dir, name)), RemoveIfPresent(BinPath(dir, name)), RemoveIfPresent(JsonPath(dir, name))]
  }

  /** The opening calls leave the bytecode object in `.bin` and the ABI in
      `.abi`. */
  lemma OpeningWrites(fs: Fs<Artifact>, dir: Path, name: string, c: Contract)
    requires WellFormed(fs)
    ensures var abi, bin, r := AbiPath(dir, name), BinPath(dir, name), Run(fs, Opening(dir, name, c));
            r.Done? ==>
              && bin in r.fs && r.fs[bin] == File(Bytecode(c.bytecode))
              && abi in r.fs && r.fs[abi] == File(AbiText(c.abi))
  {
    var abi, bin := AbiPath(dir, name), BinPath(dir, name);
    var pre := Opening(dir, name, c);
    if Run(fs, pre).Done? {
      ArtifactPathsDistinct(dir, name, dir, name);
      assert pre[..5][4] == pre[4];
      assert LastTouch(pre, abi) == Some(pre[5]);
      assert LastTouch(pre, bin) == LastTouch(pre[..5], bin) == Some(pre[4]);
      RunLastTouch(fs, pre, abi, AbiText(c.abi));
      RunLastTouch(fs, pre, bin, Bytecode(c.bytecode));
    }
  }

  /** A removal of `p` followed only by writes to other paths leaves `p`
      absent. */
  lemma RemovedThenWritesElsewhere(fs: Fs<Artifact>, a: seq<Op>, b: seq<Op>, p: Path)
    requires WellFormed(fs)
    requires |a| > 0 && a[|a| - 1] == RemoveIfPresent(p)
    requires forall j :: 0 <= j < |b| ==> b[j].Write? && b[j].path != p
    ensures Run(fs, a + b).Done? ==> p !in Run(fs, a + b).fs
  {
    RunAppend(fs, a, b);
    if Run(fs, a).Done? {
      RunEndsRemoving(fs, a, p);
      RunWritesElsewhere(Run(fs, a).fs, b, p);
    }
  }

  /** The opening calls leave no `.json`. */
  lemma OpeningRemovesDescriptor(fs: Fs<Artifact>, dir: Path, name: string, c: Contract)
    requires WellFormed(fs)
    ensures var r := Run(fs, Opening(dir, name, c));
            r.Done? ==> JsonPath(dir, name) !in r.fs
  {
    var written := [Write(BinPath(dir, name), Bytecode(c.bytecode)), Write(AbiPath(dir, name), AbiText(c.abi))];
    ArtifactPathsDistinct(dir, name, dir, name);
    RemovedThenWritesElsewhere(fs, Removals(dir, name), written, JsonPath(dir, name));
  }

  /** Without an AST entry for the source, one contract's calls throw. When
      the fault is that read, the old `.json` has already been removed and
      the new `.bin` and `.abi` are written. */
  lemma ContractMissingAst(fs: Fs<Artifact>, dir: Path, out: CompilerOutput, source: Path, name: string, c: Contract)
    requires WellFormed(fs) && AstOf(out, source).None?
    ensures Run(fs, ContractOps(dir, out, source, name, c)).Thrown?
    ensures var r := Run(fs, ContractOps(dir, out, source, name, c));
            r.fault.AstOfUndefined? ==>
              && JsonPath(dir, name) !in r.fs
              && BinPath(dir, name) in r.fs && r.fs[BinPath(dir, name)] == File(Bytecode(c.bytecode))
              && AbiPath(dir, name) in r.fs && r.fs[AbiPath(dir, name)] == File(AbiText(c.abi))
  {
    var ops := ContractOps(dir, out, source, name, c);
    var pre := ops[..6];
    var read := [AstOfMissingSource(source)];
    assert ops == pre + read;
    RunThrows(fs, ops, 6);
    RunAppend(fs, pre, read);
    assert NoMissingAst(pre);
    RunAstFaultFrom(fs, pre);
    assert pre == Opening(dir, name, c);
    OpeningWrites(fs, dir, name, c);
    OpeningRemovesDescriptor(fs, dir, name, c);
    var rp := Run(fs, pre);
    if rp.Done? {
      assert read[1..] == [];
      assert Run(rp.fs, read) == Thrown(rp.fs, AstOfUndefined(source));
    }
  }

  /** Every file the steps write is one of `w`. */
  predicate WritesFrom(ops: seq<Op>, w: set<(Path, Artifact)>) {
    forall j :: 0 <= j < |ops| && ops[j].Write? ==> (ops[j].path, ops[j].content) in w
  }

  lemma WritesFromAppend(a: seq<Op>, wa: set<(Path, Artifact)>, b: seq<Op>, wb: set<(Path, Artifact)>)
    requires WritesFrom(a, wa) && WritesFrom(b, wb)
    ensures WritesFrom(a + b, wa + wb)
  {
    forall j | 0 <= j < |a + b| && (a + b)[j].Write? ensures ((a + b)[j].path, (a + b)[j].content) in wa + wb {
      if j < |a| { assert (a + b)[j] == a[j]; } else { assert (a + b)[j] == b[j - |a|]; }
    }
  }

  /** The files the calls for one contract write: the bytecode object and
      the ABI, and the descriptor when the source has an AST entry. */
  function ContractArtifacts(dir: Path, out: CompilerOutput, source: Path, name: string, c: Contract): set<(Path, Artifact)> {
    {(BinPath(dir, name), Bytecode(c.bytecode)), (AbiPath(dir, name), AbiText(c.abi))}
    + match AstOf(out, source)
      case None => {}
      case Some(ast) => {(JsonPath(dir, name), DescriptorFile(Describe(name, c, source, ast)))}
  }

  function SourceArtifacts(dir: Path, out: CompilerOutput, source: Path, cs: seq<(string, Contract)>): set<(Path, Artifact)>
    decreases |cs|
  {
    if cs == [] then {}
    else ContractArtifacts(dir, out, source, cs[0].0, cs[0].1) + SourceArtifacts(dir, out, source, cs[1..])
  }

  function EntriesArtifacts(root: Path, bin: Path, out: CompilerOutput, f: Filters, es: seq<SourceEntry>): set<(Path, Artifact)>
    decreases |es|
  {
    if es == [] then {}
    else
      (if Survives(f, es[0].source) then SourceArtifacts(MirrorDir(root, bin, es[0].source), out, es[0].source, es[0].contracts) else {})
      + EntriesArtifacts(root, bin, out, f, es[1..])
  }

  lemma ContractWritesFrom(dir: Path, out: CompilerOutput, source: Path, name: string, c: Contract)
    ensures WritesFrom(ContractOps(dir, out, source, name, c), ContractArtifacts(dir, out, source, name, c))
  {
  }

  lemma {:induction false} SourceWritesFrom(dir: Path, out: CompilerOutput, source: Path, cs: seq<(string, Contract)>)
    ensures WritesFrom(SourceOps(dir, out, source, cs), SourceArtifacts(dir, out, source, cs))
    decreases |cs|
  {
    if cs != [] {
      ContractWritesFrom(dir, out, source, cs[0].0, cs[0].1);
      SourceWritesFrom(dir, out, source, cs[1..]);
      WritesFromAppend(ContractOps(dir, out, source, cs[0].0, cs[0].1), ContractArtifacts(dir, out, source, cs[0].0, cs[0].1),
                       SourceOps(dir, out, source, cs[1..]), SourceArtifacts(dir, out, source, cs[1..]));
    }
  }

  /** Every file the contract loop writes is an artifact of a contract of a
      source that passes the filters. */
  lemma {:induction false} EntriesWritesFrom(root: Path, bin: Path, out: CompilerOutput, f: Filters, es: seq<SourceEntry>)
    ensures WritesFrom(EntriesOps(root, bin, out, f, es), EntriesArtifacts(root, bin, out, f, es))
    decreases |es|
  {
    if es != [] {
      var e := es[0];
      var dir := MirrorDir(root, bin, e.source);
      if Survives(f, e.source) {
        SourceWritesFrom(dir, out, e.source, e.contracts);
      }
      EntriesWritesFrom(root, bin, out, f, es[1..]);
      WritesFromAppend(if Survives(f, e.source) then SourceOps(dir, out, e.source, e.contracts) else [],
                       if Survives(f, e.source) then SourceArtifacts(dir, out, e.source, e.contracts) else {},
                       EntriesOps(root, bin, out, f, es[1..]), EntriesArtifacts(root, bin, out, f, es[1..]));
    }
  }

  /** `d` is the descriptor the extension writes at `p` for contract `k` of
      the source entry `e`: the entry passes the filters, its source has an
      AST entry, `p` is the contract's mirrored `.json` path, and `d` holds
      that contract's fields. */
  predicate DescribesContract(root: Path, bin: Path, out: CompilerOutput, f: Filters, e: SourceEntry, k: int, p: Path, d: Descriptor) {
    && 0 <= k < |e.contracts|
    && Survives(f, e.source)
    && AstOf(out, e.source).Some?
    && p == JsonPath(MirrorDir(root, bin, e.source), e.contracts[k].0)
    && d == Describe(e.contracts[k].0, e.contracts[k].1, e.source, AstOf(out, e.source).value)
  }

  lemma {:induction false} SourceDescriptorGenuine(dir: Path, out: CompilerOutput, source: Path, cs: seq<(string, Contract)>, p: Path, d: Descriptor)
    requires (p, DescriptorFile(d)) in SourceArtifacts(dir, out, source, cs)
    ensures AstOf(out, source).Some?
    ensures exists k :: 0 <= k < |cs| && p == JsonPath(dir, cs[k].0) && d == Describe(cs[k].0, cs[k].1, source, AstOf(out, source).value)
    decreases |cs|
  {
    if (p, DescriptorFile(d)) in ContractArtifacts(dir, out, source, cs[0].0, cs[0].1) {
      assert p == JsonPath(dir, cs[0].0);
    } else {
      SourceDescriptorGenuine(dir, out, source, cs[1..], p, d);
      var k :| 0 <= k < |cs[1..]| && p == JsonPath(dir, cs[1..][k].0) && d == Describe(cs[1..][k].0, cs[1..][k].1, source, AstOf(out, source).value);
      assert cs[1..][k] == cs[k + 1];
    }
  }

  /** A descriptor among the loop's artifacts belongs to a contract of a
      source that passes the filters, at that contract's mirrored path. */
  lemma {:induction false} EntriesDescriptorGenuine(root: Path, bin: Path, out: CompilerOutput, f: Filters, es: seq<SourceEntry>, p: Path, d: Descriptor)
    requires (p, DescriptorFile(d)) in EntriesArtifacts(root, bin, out, f, es)
    ensures exists i, k :: 0 <= i < |es| && DescribesContract(root, bin, out, f, es[i], k, p, d)
    decreases |es|
  {
    var e := es[0];
    var dir := MirrorDir(root, bin, e.source);
    if Survives(f, e.source) && (p, DescriptorFile(d)) in SourceArtifacts(dir, out, e.source, e.contracts) {
      SourceDescriptorGenuine(dir, out, e.source, e.contracts, p, d);
      var k :| 0 <= k < |e.contracts| && p == JsonPath(dir, e.contracts[k].0)
               && d == Describe(e.contracts[k].0, e.contracts[k].1, e.source, AstOf(out, e.source).value);
      assert DescribesContract(root, bin, out, f, es[0], k, p, d);
    } else {
      EntriesDescriptorGenuine(root, bin, out, f, es[1..], p, d);
      var i, k :| 0 <= i < |es[1..]| && DescribesContract(root, bin, out, f, es[1..][i], k, p, d);
      assert es[1..][i] == es[i + 1];
    }
  }

  /** Running `[op] + rest` completes exactly when `op` completes and then
      `rest` does. */
  lemma RunCons(fs: Fs<Artifact>, op: Op, rest: seq<Op>)
    requires WellFormed(fs)
    ensures Run(fs, [op] + rest).Done? <==> Exec(fs, op).Done? && Run(Exec(fs, op).fs, rest).Done?
  {
    assert ([op] + rest)[0] == op && ([op] + rest)[1..] == rest;
  }

  /** Running a ready step keeps every other ready step ready. */
  lemma ReadyKept(fs: Fs<Artifact>, op: Op, other: Op)
    requires WellFormed(fs) && Ready(fs, op) && Ready(fs, other)
    ensures Ready(Exec(fs, op).fs, other)
  {
  }

  /** Steps that are all ready complete. */
  lemma {:induction false} RunReady(fs: Fs<Artifact>, ops: seq<Op>)
    requires WellFormed(fs) && AllReady(fs, ops)
    ensures Run(fs, ops).Done?
    decreases |ops|
  {
    if ops != [] {
      var op, rest := ops[0], ops[1..];
      assert ops == [op] + rest;
      RunCons(fs, op, rest);
      forall j | 0 <= j < |rest| ensures Ready(Exec(fs, op).fs, rest[j]) {
        assert rest[j] == ops[j + 1];
        ReadyKept(fs, op, rest[j]);
      }
      RunReady(Exec(fs, op).fs, rest);
    }
  }

  lemma AllReadyAppend(fs: Fs<Artifact>, a: seq<Op>, b: seq<Op>)
    requires AllReady(fs, a) && AllReady(fs, b)
    ensures AllReady(fs, a + b)
  {
    forall j | 0 <= j < |a + b| ensures Ready(fs, (a + b)[j]) {
      if j < |a| { assert (a + b)[j] == a[j]; } else { assert (a + b)[j] == b[j - |a|]; }
    }
  }

  /** The directory holds no directory at any of the artifact paths of
      contract `name`. */
  predicate ArtifactsReady(fs: Fs<Artifact>, dir: Path, name: string) {
    IsDir(fs, dir) && !IsDir(fs, AbiPath(dir, name)) && !IsDir(fs, BinPath(dir, name)) && !IsDir(fs, JsonPath(dir, name))
  }

  lemma ContractReady(fs: Fs<Artifact>, dir: Path, out: CompilerOutput, source: Path, name: string, c: Contract)
    requires ArtifactsReady(fs, dir, name) && AstOf(out, source).Some?
    ensures AllReady(fs, ContractOps(dir, out, source, name, c))
  {
    assert Dirname(AbiPath(dir, name)) == dir && Dirname(BinPath(dir, name)) == dir && Dirname(JsonPath(dir, name)) == dir;
  }

  lemma {:induction false} SourceReady(fs: Fs<Artifact>, dir: Path, out: CompilerOutput, source: Path, cs: seq<(string, Contract)>)
    requires cs != [] ==> AstOf(out, source).Some?
    requires forall k :: 0 <= k < |cs| ==> ArtifactsReady(fs, dir, cs[k].0)
    ensures AllReady(fs, SourceOps(dir, out, source, cs))
    decreases |cs|
  {
    if cs != [] {
      ContractReady(fs, dir, out, source, cs[0].0, cs[0].1);
      assert forall k :: 0 <= k < |cs[1..]| ==> cs[1..][k] == cs[k + 1];
      SourceReady(fs, dir, out, source, cs[1..]);
      AllReadyAppend(fs, ContractOps(dir, out, source, cs[0].0, cs[0].1), SourceOps(dir, out, source, cs[1..]));
    }
  }

  /** Every contract of every source that passes the filters has its
      mirrored directory in place and no directory at its artifact paths. */
  predicate MirrorsReady(fs: Fs<Artifact>, root: Path, bin: Path, f: Filters, es: seq<SourceEntry>) {
    forall i, k :: 0 <= i < |es| && Survives(f, es[i].source) && 0 <= k < |es[i].contracts| ==>
      ArtifactsReady(fs, MirrorDir(root, bin, es[i].source), es[i].contracts[k].0)
  }

  lemma {:induction false} EntriesReady(fs: Fs<Artifact>, root: Path, bin: Path, out: CompilerOutput, f: Filters, es: seq<SourceEntry>)
    requires AstsPresent(out, f, es) && MirrorsReady(fs, root, bin, f, es)
    ensures AllReady(fs, EntriesOps(root, bin, out, f, es))
    decreases |es|
  {
    if es != [] {
      var e := es[0];
      if Survives(f, e.source) {
        SourceReady(fs, MirrorDir(root, bin, e.source), out, e.source, e.contracts);
      }
      assert forall i :: 0 <= i < |es[1..]| ==> es[1..][i] == es[i + 1];
      EntriesReady(fs, root, bin, out, f, es[1..]);
      AllReadyAppend(fs, if Survives(f, e.source) then SourceOps(MirrorDir(root, bin, e.source), out, e.source, e.contracts) else [],
                     EntriesOps(root, bin, out, f, es[1..]));
    }
  }

  /** The whole write completes when the build directory, the snapshot's
      directory and the mirrored directory of every contract of a passing
      source already exist, neither the snapshot nor any artifact path is
      a directory, and every passing source with contracts has an AST
      entry. */
  lemma WriteRuns(fs: Fs<Artifact>, root: Path, buildDir: Path, out: CompilerOutput, f: Filters)
    requires WellFormed(fs) && AstsPresent(out, f, ContractsOf(out))
    requires IsDir(fs, root + buildDir)
    requires var snap := SnapshotPath(root, root + buildDir, f);
             IsDir(fs, Dirname(snap)) && !IsDir(fs, snap)
    requires MirrorsReady(fs, root, root + buildDir, f, ContractsOf(out))
    ensures WriteCompilationOutput(fs, root, buildDir, out, f).Done?
  {
    var bin := root + buildDir;
    var pre := [MkDirIfMissing(bin)] + SnapshotOps(root, bin, out, f);
    assert AllReady(fs, pre);
    EntriesReady(fs, root, bin, out, f, ContractsOf(out));
    AllReadyAppend(fs, pre, EntriesOps(root, bin, out, f, ContractsOf(out)));
    RunReady(fs, Plan(root, buildDir, out, f));
  }

  /** The directory of one contract exists after its first call, and none
      of its artifact paths is a directory, when it existed with no
      artifact directory in it or could be created. */
  lemma ContractDirReady(fs: Fs<Artifact>, dir: Path, name: string)
    requires WellFormed(fs)
    requires || (IsDir(fs, dir) && !IsDir(fs, AbiPath(dir, name)) && !IsDir(fs, BinPath(dir, name)) && !IsDir(fs, JsonPath(dir, name)))
             || (dir !in fs && IsDir(fs, Deepest(fs, dir)))
    ensures var e := Exec(fs, MkDirsIfMissing(dir));
            && e.Done? && IsDir(e.fs, dir)
            && !IsDir(e.fs, AbiPath(dir, name)) && !IsDir(e.fs, BinPath(dir, name)) && !IsDir(e.fs, JsonPath(dir, name))
  {
    var abi, bin, json := AbiPath(dir, name), BinPath(dir, name), JsonPath(dir, name);
    if dir !in fs {
      assert Dirname(abi) == dir && Dirname(bin) == dir && Dirname(json) == dir;
      assert abi !in fs && bin !in fs && json !in fs;
      var m := MkDirs(fs, dir);
      assert |abi| > |dir| && |bin| > |dir| && |json| > |dir|;
    }
  }

  /** One contract's calls complete when its source has an AST entry and
      either its directory exists and none of its three artifact paths is
      a directory, or its directory is missing and can be created. */
  lemma ContractRuns(fs: Fs<Artifact>, dir: Path, out: CompilerOutput, source: Path, name: string, c: Contract)
    requires WellFormed(fs) && AstOf(out, source).Some?
    requires || (IsDir(fs, dir) && !IsDir(fs, AbiPath(dir, name)) && !IsDir(fs, BinPath(dir, name)) && !IsDir(fs, JsonPath(dir, name)))
             || (dir !in fs && IsDir(fs, Deepest(fs, dir)))
    ensures Run(fs, ContractOps(dir, out, source, name, c)).Done?
  {
    var ops := ContractOps(dir, out, source, name, c);
    var rest := ops[1..];
    assert ops == [MkDirsIfMissing(dir)] + rest;
    ContractDirReady(fs, dir, name);
    var e := Exec(fs, MkDirsIfMissing(dir));
    ContractReady(e.fs, dir, out, source, name, c);
    forall j | 0 <= j < |rest| ensures Ready(e.fs, rest[j]) {
      assert rest[j] == ops[j + 1];
    }
    RunCons(fs, MkDirsIfMissing(dir), rest);
    RunReady(e.fs, rest);
  }
}
